=== FILE: README.md ===
# Volunteer-campaign server and client, modelled in Dafny

This project models the core of a volunteer-campaign management system: a
Spring server with users, JWT login, notifications and a summary report, and
the browser client (`app.js`) that drives it. Each server component is a
module of pure functions over immutable tables:

- `Common`: optional values, the HTTP statuses the controllers answer with, and the password encoder.
- `Usuarios`: the `Usuario` entity and the user table. The table carries the database's column and uniqueness constraints. The module also holds the repository lookups and the mapping of a user to a security principal.
- `AuthService`: registration and login.
- `UsuarioController`: the current-user, profile-update, password-change and delete endpoints.
- `Notificaciones` and `NotificacionController`: the notification service and its endpoints.
- `Reportes`: the summary report.
- `Jwt`: token issue and validation, and the per-request authentication filter.
- `Client`: the decisions `app.js` makes around its requests. These cover section and navigation visibility, the session kept after login, form validation before a request, the enrollment button, and the date reformatter.

A table is a `map` from primary key to row. The database's constraints are
modelled by `Usuarios.Save`. It refuses a row that exceeds a declared column
length or repeats another row's unique user name or email. So every
operation keeps the table valid (`Usuarios.ValidUsers`).

The encoder is modelled as a deterministic, injective tagging of the
password. `Matches(raw, hash)` holds exactly when `hash` is the encoding of
`raw`. The tag is the model's own: real BCrypt hashes start with `$2a$10$`
followed by a salt. BCrypt also reads at most 72 bytes of a password, which
the model does not reproduce (see "Left out").

Some inputs are parameters rather than modelled parts:

- The clock (`now`) and the token expiration.
- The JWT signature and format check (`decode`), which yields a token's claims or fails. The parser's expiry check is modelled (`Jwt.ParseClaims`).
- The notification service calls the notification controller makes.
- The outcome of every request the client sends.

Where the code and the obvious intent diverge, the model follows the code:

- **The JWT filter can throw.** In `JwtRequestFilter.doFilterInternal`, parsing the token can throw, and so can loading the user: an unknown name, or the empty name that `toUserDetails` cannot build a principal for. Either exception leaves the filter before the chain is continued. The chain is continued only when nothing throws (`Jwt.DoFilterInternal`). The parser itself throws for a token whose expiry lies before now, which is the same test `isTokenExpired` makes. With one clock reading per request, as modelled, the expiry test in `validateToken` therefore never refuses inside the filter (`Jwt.FilterValidationNeverRefuses`), and an expired token makes the filter throw rather than pass unauthenticated.
- **The notification controller calls methods the service lacks.** `NotificacionController` calls `getNotificacionesByUsuarioId` and `marcarLeida(id, userId)`. `NotificacionService` defines neither; it has `getNotificacionesByUserId` and `marcarComoLeida(id)`. The controller is therefore modelled against any service answering those two calls, passed in as function parameters.
- **Unauthenticated notification listing returns 404.** When the body runs with no authentication, the notification listing dereferences null. The resulting exception is caught with every other `RuntimeException`, so the answer is 404, not 401. In the running server route protection refuses such a caller before the body runs; that protection is not modelled (see "## Left out").
- **An unusable `userId` escapes `changePassword`.** When `userId` is missing, not a number or unknown, the exception leaves the controller (`Status.Uncaught`).
- **The client posts password changes to the wrong path.** It sends them to `/api/auth/change-password` (`app.js:443`), but the server maps `/api/usuarios/change-password`. The model covers the client's validation and the server's handler separately.

## Model

| member | source | states |
|---|---|---|
| Common.Encode | src/main/java/org/example/config/SecurityConfig.java:89-92 | an encoded password is never the plaintext; its prefix is the model's own tag, not BCrypt's format |
| Common.EncodeInjective | src/main/java/org/example/config/SecurityConfig.java:89-92 | two passwords encode to the same hash if and only if they are equal |
| Common.MatchesOnlyItsOwnEncoding | src/main/java/org/example/service/AuthService.java:46 | a password matches its own encoding, and a stored hash matches no other password |
| Usuarios.FindByNombreUsuario | src/main/java/org/example/repository/UsuarioRepository.java:14 | the lookup finds a row exactly when one has that user name, and then it is that row |
| Usuarios.Save | src/main/java/org/example/model/Usuario.java:28-58 | the database accepts a row if and only if it fits the declared column lengths and repeats no other row's user name or email; on success only that row changes, and a valid table stays valid |
| Usuarios.DeletePreservesValidity | src/main/java/org/example/controller/UsuarioController.java:193 | deleting a row removes exactly that key and keeps the table's constraints |
| Usuarios.AuthorityInjective | src/main/java/org/example/model/Usuario.java:62-63 | different roles give different "ROLE_" authorities |
| Usuarios.PrincipalOf | src/main/java/org/example/model/Usuario.java:62-73 | the principal handed to the `User` constructor has the user's name and hash, is enabled exactly when the user is active, is never expired or locked, and holds exactly one authority |
| Usuarios.ToUserDetails | src/main/java/org/example/model/Usuario.java:60-74 | the `User` constructor refuses exactly the empty user name; every other user gets the principal above |
| Usuarios.PrincipalAuthorityIffRole | src/main/java/org/example/model/Usuario.java:62-63 | a user's principal holds a role's authority if and only if the user has that role (so ADMIN and VOLUNTARIO are recognised exactly) |
| Usuarios.PrincipalDeterminedByFourFields | src/main/java/org/example/model/Usuario.java:65-73 | two users give the same principal if and only if they agree on user name, hash, activo and rol |
| AuthService.Register | src/main/java/org/example/service/AuthService.java:20-39 | a taken user name is refused first and a taken email second; otherwise the row is stored under a fresh id as an active VOLUNTARIO with the encoded password and the request's fields, unless the database refuses the row for a column length, which is a constraint violation; on success the store stays valid and grows by one |
| AuthService.Autenticar | src/main/java/org/example/service/AuthService.java:42-50 | "not found" exactly when no row has the name, "bad credentials" exactly when that row's hash does not match, and success exactly when it matches, returning that stored row |
| AuthService.RegisterThenAutenticar | src/main/java/org/example/service/AuthService.java:20-50 | right after registering, login with the registered password returns the new row and login with any other password is refused |
| AuthService.RegisterTwiceRefused | src/main/java/org/example/service/AuthService.java:21-23 | a second registration with the same user name is refused as taken |
| UsuarioController.DTOOmitsExactlyContrasena | src/main/java/org/example/controller/UsuarioController.java:35-56 | two users give the same DTO if and only if they differ at most in the password hash |
| UsuarioController.ToDTO | src/main/java/org/example/controller/UsuarioController.java:46-56 | the DTO carries each field of the user except the password hash |
| UsuarioController.GetCurrentUser | src/main/java/org/example/controller/UsuarioController.java:72-82 | 401 without a principal, 404 when no row has its name, otherwise 200 with the DTO of the principal's row |
| UsuarioController.UpdateUsuario | src/main/java/org/example/controller/UsuarioController.java:115-151 | 404 for an unknown id before any permission check; 403 unless the caller is admin or the user themself; for a permitted update, 200 exactly when the database accepts the updated row, and otherwise the exception escapes the controller with the table unchanged; on 200 only nombre, apellido, email and telefono change (activo too, for an admin), no other row changes, and the table stays valid |
| UsuarioController.UpdateUsuarioIdempotent | src/main/java/org/example/controller/UsuarioController.java:137-150 | repeating a successful update answers the same and changes nothing further |
| UsuarioController.ChangePassword | src/main/java/org/example/controller/UsuarioController.java:155-184 | 401 without a principal; an escaping exception for a missing or unknown id; 403 when the row is not the principal's; 400 when the current password does not match; success exactly when all checks pass, and then only that row's hash becomes the new password's encoding |
| UsuarioController.ChangePasswordThenAutenticar | src/main/java/org/example/controller/UsuarioController.java:175-181 | after a successful change the user logs in with the new password and with no other |
| UsuarioController.DeleteUsuario | src/main/java/org/example/controller/UsuarioController.java:187-195 | 404 and nothing removed for an absent id; a user enrolled in a campaign is not removed and the exception escapes the controller, because of the join-table foreign key; any other user is removed with 204, and nothing else changes |
| Notificaciones.CrearNotificacion | src/main/java/org/example/service/NotificacionService.java:27-35 | the saved notification is unread, keeps its own date and is dated now only when it had none; it replaces the stored row whose id it carries, and is otherwise stored under a fresh id |
| Notificaciones.CrearGrowsByAtMostOne | src/main/java/org/example/service/NotificacionService.java:27-35 | creating never removes a row: the table keeps its size exactly when the input named a stored row, and otherwise grows by one |
| Notificaciones.MarcarComoLeida | src/main/java/org/example/service/NotificacionService.java:37-46 | true exactly when the id is stored; then only that notification becomes read, otherwise nothing changes |
| Notificaciones.MarcarComoLeidaIdempotent | src/main/java/org/example/service/NotificacionService.java:37-46 | marking the same notification read twice answers the same and changes nothing the second time |
| Notificaciones.CrearThenMarcar | src/main/java/org/example/service/NotificacionService.java:27-46 | a just-created notification is found by marking it read, and only its leida flag changes |
| Notificaciones.InsertNewestFirst | src/main/java/org/example/repository/NotificacionRepository.java:13 | inserting into a newest-first list keeps it newest first and adds exactly that one element |
| Notificaciones.GetNotificacionesByUserId | src/main/java/org/example/service/NotificacionService.java:22-25 | the listing holds exactly the stored notifications of that user, each once, newest first |
| NotificacionController.GetAuthenticatedUserId | src/main/java/org/example/controller/NotificacionController.java:33-42 | "not authenticated" without an authenticated context; the id of the row with the context's name when there is one; otherwise "not found in the database" |
| NotificacionController.GetNotificacionesByUsuarioId | src/main/java/org/example/controller/NotificacionController.java:50-71 | 404 with no authentication, an unknown volunteer or a failing service call; a volunteer gets 403 for any id but their own and the list for their own; any other caller gets the list for any id; 200 exactly in those served cases |
| NotificacionController.VolunteerSeesOnlyOwnNotifications | src/main/java/org/example/controller/NotificacionController.java:56-66 | a logged-in volunteer's listing succeeds exactly for their own id when the service answers, and is 403 for every other id |
| NotificacionController.MarcarNotificacionLeida | src/main/java/org/example/controller/NotificacionController.java:79-92 | 404 when the caller's id cannot be found; a security refusal from the service is 403, any other failure 404, success 200 with the updated notification |
| NotificacionController.MarcarNotificacionLeidaWithService | src/main/java/org/example/controller/NotificacionController.java:81-91 | with the service's marcarComoLeida answering the call, a resolved caller gets 200 with the notification now read exactly when it is stored, and 404 otherwise |
| Reportes.EstadosPartitionCampanas | src/main/java/org/example/service/ReportesService.java:25-27 | the campaigns counted under two different states are disjoint, and the four states together cover every stored campaign |
| Reportes.RolesPartitionUsuarios | src/main/java/org/example/repository/UsuarioRepository.java:34 | every stored user is counted under their own role, and the users counted under two different roles are disjoint |
| Reportes.CountByEstado | src/main/java/org/example/service/ReportesService.java:25-27 | a per-state count never exceeds the number of campaigns |
| Reportes.CountByRol | src/main/java/org/example/service/ReportesService.java:30 | a per-role count never exceeds the number of users |
| Reportes.GenerarResumenReporte | src/main/java/org/example/service/ReportesService.java:22-41 | each DTO field holds the count of its own name, and there are never more volunteers than users |
| Reportes.EstadoCountsPartitionTotal | src/main/java/org/example/service/ReportesService.java:23-27 | the active, planned and finished counts plus the cancelled campaigns add up to the total |
| Reportes.EnrolledUserNotDeleted | src/main/java/org/example/controller/UsuarioController.java:192-193 | deleting a user who is in some campaign's `voluntariosInscritos` leaves the user table as it was; a user enrolled nowhere is removed |
| Reportes.RegisterAddsOneVolunteer | src/main/java/org/example/service/ReportesService.java:29-30 | a successful registration adds one user and one volunteer to the report and leaves the campaign counts alone |
| Jwt.GenerateToken | src/main/java/org/example/util/JwtUtil.java:70-87 | a token exists exactly when the principal has an authority; it names the principal, carries the first authority as its role, and expires `expiration` after it is issued |
| Jwt.IsTokenExpired | src/main/java/org/example/util/JwtUtil.java:64-66 | a token is expired exactly when now is past its expiry instant |
| Jwt.ExpiryIsPermanent | src/main/java/org/example/util/JwtUtil.java:64-66 | a token that is expired stays expired at every later time |
| Jwt.ValidateToken | src/main/java/org/example/util/JwtUtil.java:94-97 | a token validates exactly when it names the principal and now is not past its expiry |
| Jwt.GeneratedTokenValidUntilExpiry | src/main/java/org/example/util/JwtUtil.java:64-97 | every user whose principal can be built gets a token, which validates against that principal if and only if its expiry has not passed |
| Jwt.TokenBoundToSubject | src/main/java/org/example/util/JwtUtil.java:94-97 | a token never validates against a principal with another user name |
| Jwt.ExtractBearerToken | src/main/java/org/example/filter/JwtRequestFilter.java:35-44 | a token is taken exactly from a header that starts with "Bearer ", and the header is that prefix followed by the token |
| Jwt.BearerHeaderRoundTrip | src/main/java/org/example/filter/JwtRequestFilter.java:41-42 | the header built from a token yields that token back |
| Jwt.ParseClaims | src/main/java/org/example/util/JwtUtil.java:52-59 | the claims are read exactly when the signature and format are good and the expiry does not lie before now |
| Jwt.DoFilterInternal | src/main/java/org/example/filter/JwtRequestFilter.java:31-66 | a request without a bearer header passes unchanged; an existing authentication is never replaced; the filter throws exactly when the parser throws or, with no authentication present, the token names an unknown user or the empty name; with no authentication and a parsed token naming a stored user, that user's authentication is set, and only then |
| Jwt.FilterValidationNeverRefuses | src/main/java/org/example/filter/JwtRequestFilter.java:43-61 | with a bearer token and no authentication the filter either throws or authenticates: validateToken never refuses there |
| Jwt.IssuedTokenAuthenticates | src/main/java/org/example/filter/JwtRequestFilter.java:43-61 | a request with a current token carrying a stored user's claims becomes authenticated as that user with their role authority; a token naming the empty user name makes the filter throw; after expiry the parser throws and so does the filter |
| Client.MostrarSeccion | src/main/resources/static/js/app.js:12-19 | every section other than the requested one is hidden and elements outside the sections keep their display; the requested element is shown when it exists, and the call throws exactly when it does not |
| Client.ExactlyOneSectionVisible | src/main/resources/static/js/app.js:12-19 | among the sections, exactly the requested one is visible |
| Client.UnknownSectionHidesAll | src/main/resources/static/js/app.js:12-19 | for an id with no element every section ends hidden and the call throws |
| Client.LastShownSectionWins | src/main/resources/static/js/app.js:12-19 | showing one section and then another equals showing the second directly |
| Client.ActualizarNavegacion | src/main/resources/static/js/app.js:25-78 | login and register are shown if and only if nobody is logged in; profile, campaigns, calendar, notifications and logout if and only if someone is; the admin items if and only if the user's rol is exactly 'ADMIN'; the greeting names the user |
| Client.NavigationGroupsExclusive | src/main/resources/static/js/app.js:39-77 | the logged-out and logged-in item groups are never shown together, and admin items only appear alongside the logged-in ones |
| Client.HandleLoginSuccess | src/main/resources/static/js/app.js:136-150 | the current user is the login data without its token field, and the token is stored if and only if a truthy one was supplied, otherwise the stored token is kept |
| Client.RestoredSessionKeepsToken | src/main/resources/static/js/app.js:136-150 | re-entering a session with its stored token keeps that token and shows the navigation of that user |
| Client.TrimEmptyIffBlank | src/main/resources/static/js/app.js:261 | `trim()` gives the empty string if and only if the string is made of white space only |
| Client.Registrar | src/main/resources/static/js/app.js:256-263 | the form is sent if and only if it has a password that is not blank, with rol forced to VOLUNTARIO and every other field unchanged; otherwise the empty-password message |
| Client.CambiarContrasena | src/main/resources/static/js/app.js:418-451 | a redirect to login without a user; a mismatch between new and confirmation is reported before blank passwords; the request is sent if and only if both checks pass, with the user's id and the two passwords |
| Client.DetailsButton | src/main/resources/static/js/app.js:523-590 | the button keeps its state without a user; otherwise it is shown if and only if the campaign loaded, the view is not the admin one, the user is a VOLUNTARIO and the enrollment check did not throw; it offers annulment if and only if the check answered a truthy value |
| Client.InscribirseCampana | src/main/resources/static/js/app.js:605-633 | a request is sent if and only if the user is a VOLUNTARIO; the caption becomes "Anular Inscripción" on success and is unchanged otherwise |
| Client.AnularInscripcionCampana | src/main/resources/static/js/app.js:649-677 | a request is sent if and only if the user is a VOLUNTARIO; the caption becomes "Inscribirse" on success and is unchanged otherwise |
| Client.SuccessfulClicksToggleLabel | src/main/resources/static/js/app.js:627-675 | successful enroll and annul are inverse on the caption |
| Client.ClickAgreesWithDetails | src/main/resources/static/js/app.js:571-590 | after a successful enroll or annul the caption is what the details modal shows for the enrollment state the server now holds |
| Client.Split | src/main/resources/static/js/app.js:765 | splitting always yields at least one field |
| Client.SplitJoin | src/main/resources/static/js/app.js:765 | splitting a join of separator-free fields gives the fields back |
| Client.FormatDateToDDMMYYYY | src/main/resources/static/js/app.js:763-767 | null exactly for the empty string |
| Client.FormatReversesFields | src/main/resources/static/js/app.js:763-767 | 'Y-M-D' with dash-free fields becomes 'D/M/Y' |

## Left out

- Requests, JSON parsing, the DOM beyond display flags, browser storage beyond the token, `history`, alerts and redirects are not modelled. Their outcomes are parameters or results.
- The clock and JWT signing are parameters. A bad signature or a malformed token appears as a failed `decode`.
- Jwt.GenerateToken: both dates come from one clock reading, while `createToken` reads the clock twice (`JwtUtil.java:83-84`), and the token format stores them in whole seconds. So the stated lifetime of exactly `expiration` milliseconds is a simplification.
- BCrypt's salting is not modelled. The encoder is deterministic here.
- Common.Encode: the hash format is the model's tag, not BCrypt's `$2a$10$` form. Passwords longer than 72 UTF-8 bytes are not modelled. Depending on the Spring Security version, BCrypt either ignores the bytes past 72 or refuses to encode such a password.
- Common.EncodeInjective: holds of the model encoder. With BCrypt, two passwords sharing their first 72 bytes can give matching hashes.
- Common.MatchesOnlyItsOwnEncoding: "no other password matches" holds only for passwords of at most 72 UTF-8 bytes under BCrypt.
- AuthService.RegisterThenAutenticar: "any other password is refused" holds only for passwords of at most 72 UTF-8 bytes under BCrypt.
- UsuarioController.ChangePasswordThenAutenticar: "with no other password" holds only for passwords of at most 72 UTF-8 bytes under BCrypt.
- `calificacion` is a floating-point field. The model carries it without reasoning about its value.
- Java `long` overflow of ids and counts is not modelled.
- Route protection (`SecurityConfig`, `@PreAuthorize`) and the authentication provider are not modelled. The endpoints are modelled from their bodies.
- `getAllUsuarios`, `getUsuariosByRol` and `getUsuarioById` are plain lookups with no decisions, so they are not modelled.
- `AuthController` and `ReportesController` are not modelled. They only map the service results to responses.
- The campaign service and controller are not modelled. Only the campaign states feed the report.
- `Main`'s seeding of initial data is not modelled.
- Null request fields are not modelled, nor is the length limit of the password-hash column. A null authentication in `updateUsuario` is not modelled either: `auth` is always present.
- UsuarioController.UpdateUsuario: the NullPointerException raised for a missing authentication at `UsuarioController.java:119` is not modelled.
- Jwt.FilterValidationNeverRefuses: the model reads the clock once per request. The code reads it again in `isTokenExpired` after parsing, so a token whose expiry falls between those readings parses, fails `validateToken`, and the filter continues unauthenticated. The lemma does not cover that window.
- Jwt.DoFilterInternal: one clock reading serves the parse and `validateToken`, so the millisecond window described for `Jwt.FilterValidationNeverRefuses` is not modelled.
- UsuarioController.DeleteUsuario: the join table is the only foreign key to the user table that is modelled. Notifications hold the user id as a plain column, so they do not block a delete.
- Notificaciones.CrearNotificacion: an input carrying an id that no stored row has is stored under a fresh id. Depending on the Hibernate version, `save` does that or throws.
- Notificaciones.GetNotificacionesByUserId: the order among notifications with equal dates is not fixed, because the query leaves it to the database.
- `app.js` after line 770 repeats the earlier code, so only lines 1–770 are modelled. The inverse date formatter there is cut off, so no date round trip is stated.
- Client.InscribirseCampana: only the caption is modelled, not the new click handler. That handler refers to a `campana` that is not in scope in `inscribirseCampana`, so clicking the button after a successful enrollment would throw instead of annulling.
- Client.FormatDateToDDMMYYYY: a missing field renders as "undefined". The model computes that, but the contract only states the empty-input case. The well-formed case is `Client.FormatReversesFields`.
- Client.ActualizarNavegacion: the call that shows the login section when nobody is logged in is not part of the result.

=== FILE: auth_service.dfy ===
/**
 Registration and authentication against the user table. Each error the
 service raises as a `RuntimeException` is a `Failure` carrying the same
 message; a failed call leaves the table as it was.
 */
module AuthService {
  import opened Common
  import opened Usuarios

  /** The registration form as the server receives it. */
  datatype RegistroRequest = RegistroRequest(
    nombreUsuario: string,
    contrasena: string,
    nombre: string,
    apellido: string,
    email: string,
    telefono: Option<string>)

  datatype AuthError =
    | NombreUsuarioTaken
    | EmailTaken
    | ConstraintViolation
    | UsuarioNotFound
    | BadCredentials
  {
    /** The exception message the service raises; the message of a row
        the database refuses comes from the driver and is not modelled. */
    function Message(): Option<string> {
      match this
      case NombreUsuarioTaken => Some("El nombre de usuario ya existe.")
      case EmailTaken => Some("El email ya está registrado.")
      case ConstraintViolation => None
      case UsuarioNotFound => Some("Usuario no encontrado.")
      case BadCredentials => Some("Credenciales inválidas.")
    }
  }

  datatype Result<+T> = Success(value: T) | Failure(error: AuthError)

  /** The row `register` builds for a request: role VOLUNTARIO, active, the
      encoded password, rating 0, and every other field from the request. */
  function NewUsuario(id: int, req: RegistroRequest): Usuario {
    Usuario(id, req.nombreUsuario, Encode(req.contrasena), req.nombre, req.apellido,
            req.email, req.telefono, "VOLUNTARIO", 0.0, true)
  }

  /** `register`: the user name is checked first, then the email; the new
      row gets the next identity value and must fit the table's columns. */
  function Register(s: UserStore, req: RegistroRequest): (r: Result<(UserStore, Usuario)>)
    requires s.Valid()
    ensures ExistsByNombreUsuario(s.users, req.nombreUsuario) ==> r == Failure(NombreUsuarioTaken)
    ensures !ExistsByNombreUsuario(s.users, req.nombreUsuario) && ExistsByEmail(s.users, req.email) ==>
              r == Failure(EmailTaken)
    ensures r.Success? <==>
              && !ExistsByNombreUsuario(s.users, req.nombreUsuario)
              && !ExistsByEmail(s.users, req.email)
              && FitsColumns(NewUsuario(s.nextId, req))
    ensures (!ExistsByNombreUsuario(s.users, req.nombreUsuario) && !ExistsByEmail(s.users, req.email)
             && !FitsColumns(NewUsuario(s.nextId, req))) ==> r == Failure(ConstraintViolation)
    ensures r.Success? ==>
              var (s', u) := r.value;
              && s'.Valid()
              && u.id !in s.users
              && s'.users == s.users[u.id := u]
              && |s'.users| == |s.users| + 1
              && u.rol == "VOLUNTARIO" && u.activo
              && u.contrasena == Encode(req.contrasena) && u.contrasena != req.contrasena
              && u.nombreUsuario == req.nombreUsuario && u.nombre == req.nombre
              && u.apellido == req.apellido && u.email == req.email && u.telefono == req.telefono
  {
    if ExistsByNombreUsuario(s.users, req.nombreUsuario) then
      Failure(NombreUsuarioTaken)
    else if ExistsByEmail(s.users, req.email) then
      Failure(EmailTaken)
    else
      var u := NewUsuario(s.nextId, req);
      match Save(s.users, u)
      case None => Failure(ConstraintViolation)
      case Some(users') => Success((UserStore(users', s.nextId + 1), u))
  }

  /** `autenticar`: look the user up by name, then check the password. */
  function Autenticar(m: UserMap, nombreUsuario: string, contrasena: string): (r: Result<Usuario>)
    requires UniqueNombreUsuario(m)
    ensures r == Failure(UsuarioNotFound) <==> !ExistsByNombreUsuario(m, nombreUsuario)
    ensures r == Failure(BadCredentials) <==>
              exists id :: id in m && m[id].nombreUsuario == nombreUsuario && !Matches(contrasena, m[id].contrasena)
    ensures r.Success? <==>
              exists id :: id in m && m[id].nombreUsuario == nombreUsuario && Matches(contrasena, m[id].contrasena)
    ensures forall id :: id in m && m[id].nombreUsuario == nombreUsuario && r.Success? ==> r.value == m[id]
    ensures r.Failure? ==> r.error in {UsuarioNotFound, BadCredentials}
  {
    match FindByNombreUsuario(m, nombreUsuario)
    case None => Failure(UsuarioNotFound)
    case Some(u) => if Matches(contrasena, u.contrasena) then Success(u) else Failure(BadCredentials)
  }

  /** A user who has just registered can log in with the password they
      registered with and gets their own row back, and with any other
      password is refused as bad credentials. */
  lemma RegisterThenAutenticar(s: UserStore, req: RegistroRequest, other: string)
    requires s.Valid()
    requires Register(s, req).Success?
    ensures var (s', u) := Register(s, req).value;
            Autenticar(s'.users, req.nombreUsuario, req.contrasena) == Success(u)
    ensures var (s', u) := Register(s, req).value;
            other != req.contrasena ==> Autenticar(s'.users, req.nombreUsuario, other) == Failure(BadCredentials)
  {
    var (s', u) := Register(s, req).value;
    assert s'.users[u.id] == u;
    MatchesOnlyItsOwnEncoding(req.contrasena, other);
  }

  /** Once a user name is registered, any further registration with that
      user name is refused, whatever its other fields. */
  lemma RegisterTwiceRefused(s: UserStore, req: RegistroRequest, req2: RegistroRequest)
    requires s.Valid()
    requires Register(s, req).Success?
    requires req2.nombreUsuario == req.nombreUsuario
    ensures Register(Register(s, req).value.0, req2) == Failure(NombreUsuarioTaken)
  {
  }
}

=== FILE: client.dfy ===
/**
 The decisions the browser client makes before and after its requests:
 which section and which navigation items are visible, what the session
 keeps after a login, which forms may be sent, the state of the
 enrollment button, and the date reformatting for the campaign form.
 Requests, the DOM and browser storage are outside the model; their
 results are parameters and the decisions are the functions' results.
 */
module Client {
  import opened Common

  // ---------------------------------------------------------------------
  // JavaScript values

  /** The JSON-like values the client handles. Numbers are integers. */
  datatype JsValue = JsUndefined | JsNull | JsBool(b: bool) | JsNum(n: int) | JsStr(s: string)

  /** JavaScript truthiness. */
  predicate Truthy(v: JsValue) {
    match v
    case JsUndefined => false
    case JsNull => false
    case JsBool(b) => b
    case JsNum(n) => n != 0
    case JsStr(s) => s != ""
  }

  /** A plain object; a missing property reads as `undefined`. */
  type JsObject = map<string, JsValue>

  function Get(o: JsObject, key: string): JsValue {
    if key in o then o[key] else JsUndefined
  }

  function DigitChar(d: nat): char
    requires d < 10
  {
    "0123456789"[d]
  }

  function NatToString(n: nat): (s: string)
    ensures |s| >= 1
    decreases n
  {
    if n < 10 then [DigitChar(n)] else NatToString(n / 10) + [DigitChar(n % 10)]
  }

  /** How a value reads inside a template literal. */
  function Render(v: JsValue): string {
    match v
    case JsUndefined => "undefined"
    case JsNull => "null"
    case JsBool(b) => if b then "true" else "false"
    case JsNum(n) => if n < 0 then "-" + NatToString(-n) else NatToString(n)
    case JsStr(s) => s
  }

  // ---------------------------------------------------------------------
  // Sections

  /** Display state of the page's elements by id: true is 'block', false
      'none'. */
  type Display = map<string, bool>

  /** The page after `mostrarSeccion`, and whether the requested element
      existed; when it did not, reading its style threw a `TypeError` after
      the sections had already been hidden. */
  datatype SectionResult = SectionResult(display: Display, found: bool)

  /** `mostrarSeccion`: hides every section of the page's `main` and then
      shows the element with the requested id; other elements keep their
      display. The sections are elements of the page. */
  function MostrarSeccion(display: Display, sections: set<string>, id: string): (r: SectionResult)
    requires sections <= display.Keys
    ensures r.found <==> id in display
    ensures r.display.Keys == display.Keys
    ensures r.found ==> r.display[id]
    ensures forall s :: s in sections && s != id ==> !r.display[s]
    ensures forall k :: k in display && k !in sections && k != id ==> r.display[k] == display[k]
  {
    var hidden := map k | k in display :: if k in sections then false else display[k];
    if id in display then SectionResult(hidden[id := true], true) else SectionResult(hidden, false)
  }

  /** Among the sections, exactly the requested one is visible afterwards. */
  lemma ExactlyOneSectionVisible(display: Display, sections: set<string>, id: string)
    requires sections <= display.Keys
    requires id in sections
    ensures var r := MostrarSeccion(display, sections, id);
            r.found && (set s | s in sections && r.display[s]) == {id}
  {
  }

  /** An id with no element leaves every section hidden and the call
      throwing. */
  lemma UnknownSectionHidesAll(display: Display, sections: set<string>, id: string)
    requires sections <= display.Keys
    requires id !in display
    ensures var r := MostrarSeccion(display, sections, id);
            !r.found && forall s :: s in sections ==> !r.display[s]
  {
  }

  /** Showing one section and then another is the same as showing the
      second directly, provided the first was a section of `main`: an
      element outside it would stay visible. */
  lemma LastShownSectionWins(display: Display, sections: set<string>, a: string, b: string)
    requires sections <= display.Keys
    requires a in sections
    ensures MostrarSeccion(MostrarSeccion(display, sections, a).display, sections, b) == MostrarSeccion(display, sections, b)
  {
  }

  // ---------------------------------------------------------------------
  // Navigation

  datatype NavState = NavState(
    login: bool,
    register: bool,
    profile: bool,
    campaigns: bool,
    adminCampaigns: bool,
    volunteers: bool,
    reportsAdmin: bool,
    calendar: bool,
    notifications: bool,
    logout: bool,
    userInfo: string)

  predicate IsRol(usuario: JsObject, rol: string) {
    Get(usuario, "rol") == JsStr(rol)
  }

  /** `actualizarNavegacion`. */
  function ActualizarNavegacion(usuarioActual: Option<JsObject>): (nav: NavState)
    ensures nav.login == nav.register == usuarioActual.None?
    ensures nav.profile == nav.campaigns == nav.calendar == nav.notifications == nav.logout == usuarioActual.Some?
    ensures nav.adminCampaigns == nav.volunteers == nav.reportsAdmin ==
              (usuarioActual.Some? && IsRol(usuarioActual.value, "ADMIN"))
    ensures usuarioActual.None? ==> nav.userInfo == ""
    ensures usuarioActual.Some? ==> nav.userInfo == "Bienvenido, " + Render(Get(usuarioActual.value, "nombreUsuario"))
  {
    match usuarioActual
    case Some(u) =>
      var isAdmin := IsRol(u, "ADMIN");
      NavState(false, false, true, true, isAdmin, isAdmin, isAdmin, true, true, true,
               "Bienvenido, " + Render(Get(u, "nombreUsuario")))
    case None =>
      NavState(true, true, false, false, false, false, false, false, false, false, "")
  }

  /** The two groups of navigation items are never shown together, and an
      admin item is only ever shown alongside the logged-in items. */
  lemma NavigationGroupsExclusive(usuarioActual: Option<JsObject>)
    ensures var nav := ActualizarNavegacion(usuarioActual);
            && nav.login != nav.logout
            && (nav.adminCampaigns ==> nav.profile && !nav.login)
  {
  }

  // ---------------------------------------------------------------------
  // Session

  /** The client's session: the in-memory current user and the token kept
      in browser storage. */
  datatype Session = Session(usuarioActual: Option<JsObject>, storedToken: Option<string>)

  const TokenKey: string := "jwtToken"

  /** `handleLoginSuccess`: the token is stored only when one was supplied
      (a truthy value), and the current user is a copy of the data without
      its token. */
  function HandleLoginSuccess(session: Session, userData: JsObject): (r: Session)
    ensures r.usuarioActual.Some?
    ensures TokenKey !in r.usuarioActual.value
    ensures r.usuarioActual.value.Keys == userData.Keys - {TokenKey}
    ensures forall k :: k in userData && k != TokenKey ==> r.usuarioActual.value[k] == userData[k]
    ensures Truthy(Get(userData, TokenKey)) ==> r.storedToken == Some(Render(userData[TokenKey]))
    ensures !Truthy(Get(userData, TokenKey)) ==> r.storedToken == session.storedToken
  {
    var token := Get(userData, TokenKey);
    var stored := if Truthy(token) then Some(Render(token)) else session.storedToken;
    Session(Some(userData - {TokenKey}), stored)
  }

  /** Re-entering a stored session, as the page does on load by handing the
      server's user data plus the stored token back to `handleLoginSuccess`,
      keeps the stored token and shows the navigation of that user. */
  lemma RestoredSessionKeepsToken(session: Session, userData: JsObject, token: string)
    requires session.storedToken == Some(token) && token != ""
    ensures var r := HandleLoginSuccess(session, userData[TokenKey := JsStr(token)]);
            && r.storedToken == Some(token)
            && r.usuarioActual == Some(userData - {TokenKey})
            && ActualizarNavegacion(r.usuarioActual).profile
            && (ActualizarNavegacion(r.usuarioActual).adminCampaigns <==> IsRol(userData, "ADMIN"))
  {
    var r := HandleLoginSuccess(session, userData[TokenKey := JsStr(token)]);
    assert userData[TokenKey := JsStr(token)] - {TokenKey} == userData - {TokenKey};
    assert Get(userData - {TokenKey}, "rol") == Get(userData, "rol");
  }

  // ---------------------------------------------------------------------
  // Whitespace and trimming

  /** The characters `String.prototype.trim` removes: ECMAScript white
      space and line terminators. */
  predicate IsJsSpace(c: char) {
    || c == '\t' || c == '\n' || c == '\U{000B}' || c == '\U{000C}' || c == '\r' || c == ' '
    || c == '\U{00A0}' || c == '\U{1680}' || ('\U{2000}' <= c <= '\U{200A}')
    || c == '\U{2028}' || c == '\U{2029}' || c == '\U{202F}' || c == '\U{205F}' || c == '\U{3000}'
    || c == '\U{FEFF}'
  }

  predicate Blank(s: string) {
    forall i :: 0 <= i < |s| ==> IsJsSpace(s[i])
  }

  function TrimStart(s: string): (r: string)
    decreases |s|
  {
    if |s| > 0 && IsJsSpace(s[0]) then TrimStart(s[1..]) else s
  }

  function TrimEnd(s: string): (r: string)
    decreases |s|
  {
    if |s| > 0 && IsJsSpace(s[|s| - 1]) then TrimEnd(s[..|s| - 1]) else s
  }

  /** `String.prototype.trim`. */
  function Trim(s: string): string {
    TrimEnd(TrimStart(s))
  }

  lemma {:induction false} TrimStartEmptyIffBlank(s: string)
    ensures TrimStart(s) == "" <==> Blank(s)
    ensures TrimStart(s) != "" ==> !IsJsSpace(TrimStart(s)[0])
    decreases |s|
  {
    if |s| > 0 && IsJsSpace(s[0]) {
      TrimStartEmptyIffBlank(s[1..]);
      assert Blank(s) <==> Blank(s[1..]) by {
        if Blank(s[1..]) {
          forall i | 0 <= i < |s| ensures IsJsSpace(s[i]) {
            if i > 0 { assert s[i] == s[1..][i - 1]; }
          }
        }
      }
    }
  }

  lemma {:induction false} TrimEndKeepsFirst(s: string)
    requires s != "" && !IsJsSpace(s[0])
    ensures TrimEnd(s) != "" && TrimEnd(s)[0] == s[0]
    decreases |s|
  {
    if IsJsSpace(s[|s| - 1]) {
      TrimEndKeepsFirst(s[..|s| - 1]);
    }
  }

  /** `trim()` yields the empty string exactly for strings made of white
      space only. */
  lemma TrimEmptyIffBlank(s: string)
    ensures Trim(s) == "" <==> Blank(s)
  {
    TrimStartEmptyIffBlank(s);
    if TrimStart(s) != "" {
      TrimEndKeepsFirst(TrimStart(s));
    }
  }

  // ---------------------------------------------------------------------
  // Forms

  /** What a submit handler does: stop with a message before any request,
      or send a request body. */
  datatype FormOutcome<+B> = Rejected(message: string) | Sent(body: B)

  const EmptyPasswordMessage: string := "La contraseña no puede estar vacía."

  /** `registrar`, up to the request: the role is forced to VOLUNTARIO and
      a missing or blank password stops the submission. Form values are
      strings. */
  function Registrar(form: map<string, string>): (r: FormOutcome<map<string, string>>)
    ensures r.Sent? <==> "contrasena" in form && !Blank(form["contrasena"])
    ensures r.Rejected? ==> r.message == EmptyPasswordMessage
    ensures r.Sent? ==> r.body.Keys == form.Keys + {"rol"} && r.body["rol"] == "VOLUNTARIO"
    ensures r.Sent? ==> forall k :: k in form && k != "rol" ==> r.body[k] == form[k]
  {
    var datosUsuario := form["rol" := "VOLUNTARIO"];
    if "contrasena" !in datosUsuario then
      Rejected(EmptyPasswordMessage)
    else
      TrimEmptyIffBlank(datosUsuario["contrasena"]);
      if datosUsuario["contrasena"] == "" || Trim(datosUsuario["contrasena"]) == "" then
        Rejected(EmptyPasswordMessage)
      else
        Sent(datosUsuario)
  }

  datatype PasswordChangeBody = PasswordChangeBody(userId: JsValue, currentPassword: string, newPassword: string)

  const MismatchMessage: string := "Las nuevas contraseñas no coinciden."
  const EmptyPasswordsMessage: string := "Las contraseñas no pueden estar vacías."

  /** `cambiarContrasena`, up to the request. None is the redirect to the
      login section when nobody is logged in. The mismatch check comes
      before the blank check. */
  function CambiarContrasena(usuarioActual: Option<JsObject>, actual: string, nueva: string, confirmar: string)
    : (r: Option<FormOutcome<PasswordChangeBody>>)
    ensures r.None? <==> usuarioActual.None?
    ensures usuarioActual.Some? && nueva != confirmar ==> r == Some(Rejected(MismatchMessage))
    ensures usuarioActual.Some? && nueva == confirmar && (Blank(nueva) || Blank(actual)) ==>
              r == Some(Rejected(EmptyPasswordsMessage))
    ensures r.Some? && r.value.Sent? <==>
              usuarioActual.Some? && nueva == confirmar && !Blank(nueva) && !Blank(actual)
    ensures r.Some? && r.value.Sent? ==>
              r.value.body == PasswordChangeBody(Get(usuarioActual.value, "id"), actual, nueva)
  {
    TrimEmptyIffBlank(nueva);
    TrimEmptyIffBlank(actual);
    match usuarioActual
    case None => None
    case Some(u) =>
      if nueva != confirmar then Some(Rejected(MismatchMessage))
      else if Trim(nueva) == "" || Trim(actual) == "" then Some(Rejected(EmptyPasswordsMessage))
      else Some(Sent(PasswordChangeBody(Get(u, "id"), actual, nueva)))
  }

  // ---------------------------------------------------------------------
  // Enrollment button

  datatype ButtonLabel = Inscribirse | AnularInscripcion {
    function Text(): string {
      match this
      case Inscribirse => "Inscribirse"
      case AnularInscripcion => "Anular Inscripción"
    }
  }

  datatype ActionButton = Hidden | Shown(caption: ButtonLabel)

  /** The answer to the "is enrolled?" request: a parsed body, a non-ok
      status, or an exception (network failure, unparsable body). */
  datatype EnrollmentCheck = CheckOk(body: JsValue) | CheckNotOk | CheckThrew

  predicate IsVoluntario(usuarioActual: Option<JsObject>) {
    usuarioActual.Some? && IsRol(usuarioActual.value, "VOLUNTARIO")
  }

  /** The details modal's action button after `mostrarDetallesCampana`.
      Without a user the handler returns at once and the button keeps its
      previous state; otherwise it is hidden first and shown only for a
      volunteer outside the admin context once the campaign has loaded.
      A failed enrollment check counts as "not enrolled". */
  function DetailsButton(previous: ActionButton, usuarioActual: Option<JsObject>, esContextoAdmin: bool,
                         campaignLoaded: bool, check: EnrollmentCheck): (r: ActionButton)
    ensures usuarioActual.None? ==> r == previous
    ensures usuarioActual.Some? ==>
              (r.Shown? <==> campaignLoaded && !esContextoAdmin && IsVoluntario(usuarioActual) && !check.CheckThrew?)
    ensures usuarioActual.Some? && r.Shown? ==>
              (r.caption == AnularInscripcion <==> check.CheckOk? && Truthy(check.body))
  {
    if usuarioActual.None? then previous
    else if !campaignLoaded then Hidden
    else if !esContextoAdmin && IsRol(usuarioActual.value, "VOLUNTARIO") then
      match check
      case CheckThrew => Hidden
      case CheckNotOk => Shown(Inscribirse)
      case CheckOk(estaInscrito) => if Truthy(estaInscrito) then Shown(AnularInscripcion) else Shown(Inscribirse)
    else
      Hidden
  }

  /** How an enroll or annul request ended. */
  datatype Reply = ReplyOk | ReplyNotOk | ReplyThrew

  /** The result of an enroll or annul click: whether a request was sent at
      all, and the button caption afterwards. */
  datatype ClickResult = ClickResult(requestSent: bool, caption: ButtonLabel)

  /** `inscribirseCampana`: refused without a request unless the user is a
      volunteer; on success the caption becomes "Anular Inscripción". */
  function InscribirseCampana(usuarioActual: Option<JsObject>, caption: ButtonLabel, reply: Reply): (r: ClickResult)
    ensures r.requestSent <==> IsVoluntario(usuarioActual)
    ensures r.requestSent && reply == ReplyOk ==> r.caption == AnularInscripcion
    ensures !(r.requestSent && reply == ReplyOk) ==> r.caption == caption
  {
    if !IsVoluntario(usuarioActual) then ClickResult(false, caption)
    else if reply == ReplyOk then ClickResult(true, AnularInscripcion)
    else ClickResult(true, caption)
  }

  /** `anularInscripcion`: the same guard; on success the caption becomes
      "Inscribirse". */
  function AnularInscripcionCampana(usuarioActual: Option<JsObject>, caption: ButtonLabel, reply: Reply): (r: ClickResult)
    ensures r.requestSent <==> IsVoluntario(usuarioActual)
    ensures r.requestSent && reply == ReplyOk ==> r.caption == Inscribirse
    ensures !(r.requestSent && reply == ReplyOk) ==> r.caption == caption
  {
    if !IsVoluntario(usuarioActual) then ClickResult(false, caption)
    else if reply == ReplyOk then ClickResult(true, Inscribirse)
    else ClickResult(true, caption)
  }

  /** Successful enroll and annul calls are inverse to each other on the
      caption: each flips it, and one after the other restores it. */
  lemma SuccessfulClicksToggleLabel(usuarioActual: Option<JsObject>)
    requires IsVoluntario(usuarioActual)
    ensures InscribirseCampana(usuarioActual, Inscribirse, ReplyOk).caption == AnularInscripcion
    ensures AnularInscripcionCampana(usuarioActual, InscribirseCampana(usuarioActual, Inscribirse, ReplyOk).caption, ReplyOk).caption
              == Inscribirse
    ensures InscribirseCampana(usuarioActual, AnularInscripcionCampana(usuarioActual, AnularInscripcion, ReplyOk).caption, ReplyOk).caption
              == AnularInscripcion
  {
  }

  /** After a successful enroll or annul click, the button shows what the
      details modal would show for the enrollment state the server now
      holds. */
  lemma ClickAgreesWithDetails(previous: ActionButton, usuarioActual: Option<JsObject>, caption: ButtonLabel)
    requires IsVoluntario(usuarioActual)
    ensures DetailsButton(previous, usuarioActual, false, true, CheckOk(JsBool(true)))
              == Shown(InscribirseCampana(usuarioActual, caption, ReplyOk).caption)
    ensures DetailsButton(previous, usuarioActual, false, true, CheckOk(JsBool(false)))
              == Shown(AnularInscripcionCampana(usuarioActual, caption, ReplyOk).caption)
  {
  }

  // ---------------------------------------------------------------------
  // Dates

  /** `String.prototype.split` with a one-character separator. */
  function Split(s: string, sep: char): (parts: seq<string>)
    ensures |parts| >= 1
    decreases |s|
  {
    if |s| == 0 then [""]
    else
      var rest := Split(s[1..], sep);
      if s[0] == sep then [""] + rest else [[s[0]] + rest[0]] + rest[1..]
  }

  /** `Array.prototype.join` with a one-character separator. */
  function Join(parts: seq<string>, sep: char): string
    requires |parts| >= 1
    decreases |parts|
  {
    if |parts| == 1 then parts[0] else parts[0] + [sep] + Join(parts[1..], sep)
  }

  lemma {:induction false} SplitPrefixFree(a: string, rest: string, sep: char)
    requires sep !in a
    ensures Split(a + [sep] + rest, sep) == [a] + Split(rest, sep)
    ensures Split(a, sep) == [a]
    decreases |a|
  {
    if |a| == 0 {
      assert a + [sep] + rest == [sep] + rest;
      assert ([sep] + rest)[1..] == rest;
    } else {
      SplitPrefixFree(a[1..], rest, sep);
      assert (a + [sep] + rest)[1..] == a[1..] + [sep] + rest;
      assert [a[0]] + a[1..] == a;
    }
  }

  /** Splitting a join of separator-free parts gives the parts back. */
  lemma {:induction false} SplitJoin(parts: seq<string>, sep: char)
    requires |parts| >= 1
    requires forall i :: 0 <= i < |parts| ==> sep !in parts[i]
    ensures Split(Join(parts, sep), sep) == parts
    decreases |parts|
  {
    if |parts| == 1 {
      SplitPrefixFree(parts[0], "", sep);
    } else {
      SplitJoin(parts[1..], sep);
      SplitPrefixFree(parts[0], Join(parts[1..], sep), sep);
      assert [parts[0]] + parts[1..] == parts;
    }
  }

  /** Reading a missing array element in a template literal. */
  function Nth(parts: seq<string>, i: nat): string {
    if i < |parts| then parts[i] else "undefined"
  }

  /** `formatDateToDDMMYYYY`: null for an empty input; otherwise the first
      three '-'-separated fields in reverse order joined by '/', a missing
      field reading "undefined". */
  function FormatDateToDDMMYYYY(dateString: string): (r: Option<string>)
    ensures r.None? <==> dateString == ""
  {
    if dateString == "" then None
    else
      var parts := Split(dateString, '-');
      Some(Nth(parts, 2) + "/" + Nth(parts, 1) + "/" + Nth(parts, 0))
  }

  /** A 'YYYY-MM-DD' value whose fields hold no '-' comes out as
      'DD/MM/YYYY'. */
  lemma FormatReversesFields(year: string, month: string, day: string)
    requires '-' !in year && '-' !in month && '-' !in day
    ensures FormatDateToDDMMYYYY(year + "-" + month + "-" + day) == Some(day + "/" + month + "/" + year)
  {
    var parts := [year, month, day];
    SplitJoin(parts, '-');
    assert Join(parts, '-') == year + "-" + month + "-" + day by {
      assert parts[1..] == [month, day] && parts[1..][1..] == [day];
      assert Join([day], '-') == day;
      assert Join([month, day], '-') == month + "-" + day;
    }
  }
}

=== FILE: common.dfy ===
/**
 Shared vocabulary of the campaign server model: optional values, the HTTP
 statuses the controllers answer with, and the password encoder.
 */
module Common {

  /** A value that may be absent (a Java `Optional`, or a nullable field). */
  datatype Option<+T> = None | Some(value: T)

  /** The response statuses the controllers build. `Uncaught` stands for an
      exception that leaves the controller; the framework picks its code. */
  datatype Status =
    | Ok
    | NoContent
    | BadRequest
    | Unauthorized
    | Forbidden
    | NotFound
    | Uncaught
  {
    /** The numeric HTTP code, when the controller itself decides it. */
    function Code(): Option<int> {
      match this
      case Ok => Some(200)
      case NoContent => Some(204)
      case BadRequest => Some(400)
      case Unauthorized => Some(401)
      case Forbidden => Some(403)
      case NotFound => Some(404)
      case Uncaught => None
    }
  }

  /** A controller's `ResponseEntity`: a status and an optional body. */
  datatype Response<+T> = Response(status: Status, body: Option<T>)

  /** Tag of the model's encoded form. The real encoder is BCrypt, whose
      hashes have the form "$2a$10$" followed by a salt and a digest; the
      model keeps only what the code relies on: encoding never yields the
      plaintext, and `Matches` accepts the password that was encoded and no
      other. The tag is the model's own and is not BCrypt's format. */
  const EncoderTag: string := "{bcrypt}"

  function Encode(raw: string): (hash: string)
    ensures hash != raw
    ensures EncoderTag <= hash
  {
    EncoderTag + raw
  }

  /** `PasswordEncoder.matches(raw, hash)`. */
  predicate Matches(raw: string, hash: string) {
    hash == Encode(raw)
  }

  /** Two different passwords never encode to the same hash, so a hash
      matches exactly one password. */
  lemma {:induction false} EncodeInjective(a: string, b: string)
    ensures Encode(a) == Encode(b) <==> a == b
  {
    if Encode(a) == Encode(b) {
      assert a == Encode(a)[|EncoderTag|..];
      assert b == Encode(b)[|EncoderTag|..];
    }
  }

  /** A password matches its own encoding and no other password's. */
  lemma MatchesOnlyItsOwnEncoding(raw: string, other: string)
    ensures Matches(raw, Encode(raw))
    ensures Matches(other, Encode(raw)) <==> other == raw
  {
    EncodeInjective(other, raw);
  }
}

=== FILE: jwt.dfy ===
/**
 Token issue and validation, and the per-request filter that turns a
 bearer token into an authentication in the security context.

 A token is its claims: subject, role, issue time and expiry time, all
 times in milliseconds. Signing and the compact encoding are outside the
 model: reading the claims of a token string is a parameter `decode`, None
 when the signature or the format is bad. The parser's own expiry check,
 which throws once the expiry lies before now, is modelled explicitly
 (`ParseClaims`).
 */
module Jwt {
  import opened Common
  import opened Usuarios

  datatype Token = Token(subject: string, role: string, issuedAt: int, expiresAt: int)

  /** `generateToken` followed by `createToken`. Both dates come from one
      clock reading `now` here, while the code reads the clock once for
      each. Taking the first authority of a principal without one throws,
      which is None here. */
  function GenerateToken(ud: Principal, now: int, expiration: int): (r: Option<Token>)
    ensures r.Some? <==> |ud.authorities| > 0
    ensures r.Some? ==> r.value.subject == ud.username && r.value.role == ud.authorities[0]
    ensures r.Some? ==> r.value.issuedAt == now && r.value.expiresAt - r.value.issuedAt == expiration
  {
    if |ud.authorities| == 0 then None
    else Some(Token(ud.username, ud.authorities[0], now, now + expiration))
  }

  /** `isTokenExpired`: a token is expired once now is past its expiry
      instant; at the instant itself it is still current. */
  function IsTokenExpired(t: Token, now: int): (expired: bool)
    ensures expired <==> now > t.expiresAt
  {
    t.expiresAt < now
  }

  /** Once expired, a token stays expired. */
  lemma ExpiryIsPermanent(t: Token, now: int, later: int)
    requires now <= later
    ensures IsTokenExpired(t, now) ==> IsTokenExpired(t, later)
    ensures !IsTokenExpired(t, later) ==> !IsTokenExpired(t, now)
  {
  }

  /** `validateToken`: the token names the principal and now is not past
      its expiry instant. */
  function ValidateToken(t: Token, ud: Principal, now: int): (valid: bool)
    ensures valid <==> t.subject == ud.username && now <= t.expiresAt
  {
    t.subject == ud.username && !IsTokenExpired(t, now)
  }

  /** Every user whose principal can be built gets a token, and that token
      is valid for the principal from any moment up to and including its
      expiry, and invalid afterwards; its role claim is the user's
      authority. */
  lemma GeneratedTokenValidUntilExpiry(u: Usuario, issued: int, expiration: int, now: int)
    ensures ToUserDetails(u).Some? ==> GenerateToken(ToUserDetails(u).value, issued, expiration).Some?
    ensures ToUserDetails(u).Some? ==>
              var ud := ToUserDetails(u).value;
              var t := GenerateToken(ud, issued, expiration).value;
              && t.role == Authority(u.rol)
              && (ValidateToken(t, ud, now) <==> now <= issued + expiration)
  {
  }

  /** A token never validates against a principal with a different user
      name, whatever the time. */
  lemma TokenBoundToSubject(t: Token, ud: Principal, now: int)
    requires t.subject != ud.username
    ensures !ValidateToken(t, ud, now)
  {
  }

  // ---------------------------------------------------------------------
  // Request filter

  const BearerPrefix: string := "Bearer "

  /** The token in an `Authorization` header: present only when the header
      exists and starts with "Bearer ", and then the header minus its first
      seven characters. */
  function ExtractBearerToken(header: Option<string>): (r: Option<string>)
    ensures r.Some? <==> header.Some? && BearerPrefix <= header.value
    ensures r.Some? ==> header.value == BearerPrefix + r.value
  {
    if header.Some? && BearerPrefix <= header.value then
      assert |BearerPrefix| == 7;
      Some(header.value[7..])
    else
      None
  }

  /** The header the client builds from a token gives that token back. */
  lemma BearerHeaderRoundTrip(token: string)
    ensures ExtractBearerToken(Some(BearerPrefix + token)) == Some(token)
  {
  }

  /** What `doFilterInternal` does to the request: the chain continues with
      the resulting security context, or an exception leaves the filter
      before the chain is continued. */
  datatype FilterResult = Continue(ctx: Option<Authentication>) | Thrown

  /** The claims `extractUsername` reads: None when the parser throws, for
      a bad signature or format (`decode` answering None) or because the
      token's expiry lies before now. */
  function ParseClaims(decode: string -> Option<Token>, jwt: string, now: int): (r: Option<Token>)
    ensures r.Some? <==> decode(jwt).Some? && !IsTokenExpired(decode(jwt).value, now)
    ensures r.Some? ==> r == decode(jwt)
  {
    match decode(jwt)
    case None => None
    case Some(t) => if IsTokenExpired(t, now) then None else Some(t)
  }

  /** The authentication the filter stores for a loaded principal. */
  function AuthenticationOf(ud: Principal): Authentication {
    Authentication(ud.username, true, ud.authorities)
  }

  /** `doFilterInternal`, with `loadUserByUsername` being the user-table
      lookup followed by `toUserDetails`: it throws for an unknown name, and
      `toUserDetails` throws for the empty one. */
  function DoFilterInternal(users: UserMap, header: Option<string>, ctx: Option<Authentication>,
                            decode: string -> Option<Token>, now: int): (r: FilterResult)
    requires ValidUsers(users)
    ensures ExtractBearerToken(header).None? ==> r == Continue(ctx)
    ensures ctx.Some? && r.Continue? ==> r.ctx == ctx
    ensures r.Thrown? <==>
              && ExtractBearerToken(header).Some?
              && (|| ParseClaims(decode, ExtractBearerToken(header).value, now).None?
                  || (&& ctx.None?
                      && var subject := decode(ExtractBearerToken(header).value).value.subject;
                         !ExistsByNombreUsuario(users, subject) || subject == ""))
    ensures r.Continue? && r.ctx != ctx ==>
              && ctx.None?
              && ExtractBearerToken(header).Some?
              && ParseClaims(decode, ExtractBearerToken(header).value, now).Some?
              && var t := decode(ExtractBearerToken(header).value).value;
                 && t.subject != ""
                 && (exists id :: id in users && users[id].nombreUsuario == t.subject
                       && ValidateToken(t, PrincipalOf(users[id]), now)
                       && r.ctx == Some(AuthenticationOf(PrincipalOf(users[id]))))
    ensures (ctx.None? && ExtractBearerToken(header).Some?
             && ParseClaims(decode, ExtractBearerToken(header).value, now).Some?) ==>
              var t := decode(ExtractBearerToken(header).value).value;
              forall id :: id in users && users[id].nombreUsuario == t.subject && t.subject != "" ==>
                r == Continue(Some(AuthenticationOf(PrincipalOf(users[id]))))
  {
    match ExtractBearerToken(header)
    case None => Continue(ctx)
    case Some(jwt) =>
      match ParseClaims(decode, jwt, now)
      case None => Thrown
      case Some(t) =>
        if ctx.Some? then
          Continue(ctx)
        else
          match FindByNombreUsuario(users, t.subject)
          case None => Thrown
          case Some(u) =>
            match ToUserDetails(u)
            case None => Thrown
            case Some(ud) =>
              if ValidateToken(t, ud, now) then Continue(Some(AuthenticationOf(ud))) else Continue(ctx)
  }

  /** With one clock reading per request, `validateToken` never refuses
      inside the filter: the user was loaded by the token's own subject,
      and a token past its expiry has already made the parser throw. A
      request with a token and no authentication therefore either throws or
      ends up authenticated. */
  lemma FilterValidationNeverRefuses(users: UserMap, header: Option<string>,
                                      decode: string -> Option<Token>, now: int)
    requires ValidUsers(users)
    requires ExtractBearerToken(header).Some?
    ensures DoFilterInternal(users, header, None, decode, now).Thrown?
            || DoFilterInternal(users, header, None, decode, now).ctx.Some?
  {
    var jwt := ExtractBearerToken(header).value;
    match ParseClaims(decode, jwt, now)
    case None =>
    case Some(t) =>
      match FindByNombreUsuario(users, t.subject)
      case None =>
      case Some(u) =>
        assert !IsTokenExpired(t, now);
        assert ToUserDetails(u).Some? ==> ValidateToken(t, ToUserDetails(u).value, now);
  }

  /** A request carrying a token with a stored user's claims, sent with no
      authentication yet, ends up authenticated as that user with the
      user's role authority while the token is current; once it has expired
      the parser throws and so does the filter. A user with an empty name
      never gets a token (login cannot build the principal), and a token
      naming one makes the filter throw. */
  lemma IssuedTokenAuthenticates(users: UserMap, u: Usuario, jwt: string, decode: string -> Option<Token>,
                                 issued: int, expiration: int, now: int)
    requires ValidUsers(users)
    requires u.id in users && users[u.id] == u
    requires decode(jwt) == GenerateToken(PrincipalOf(u), issued, expiration)
    ensures var r := DoFilterInternal(users, Some(BearerPrefix + jwt), None, decode, now);
            && (u.nombreUsuario == "" ==> r == Thrown)
            && (u.nombreUsuario != "" && now <= issued + expiration ==>
                  r == Continue(Some(Authentication(u.nombreUsuario, true, [Authority(u.rol)]))))
            && (now > issued + expiration ==> r == Thrown)
  {
  }
}

=== FILE: notificacion_controller.dfy ===
/**
 The notification endpoints: the authorisation rule for listing a user's
 notifications, and the mapping of the service's errors to statuses when
 marking one read.

 The controller calls two service methods the service class does not
 define: `getNotificacionesByUsuarioId(idUsuario)` (the service has
 `getNotificacionesByUserId`) and `marcarLeida(id, userId)` (the service
 has `marcarComoLeida(id)`, which returns a boolean and checks no owner).
 Both calls are therefore parameters here: the controller is modelled
 against any service that answers them.
 */
module NotificacionController {
  import opened Common
  import opened Usuarios
  import opened Notificaciones

  /** What `getAuthenticatedUserId` returns or throws. */
  datatype IdLookup = UserId(id: int) | LookupError(message: string)

  const NotAuthenticatedMessage: string := "Usuario no autenticado."
  const NotInStoreMessage: string := "Usuario autenticado no encontrado en la base de datos."

  /** `getAuthenticatedUserId`: the id of the row named by an authenticated
      context, or a `RuntimeException` when there is none. */
  function GetAuthenticatedUserId(m: UserMap, ctx: Option<Authentication>): (r: IdLookup)
    requires ValidUsers(m)
    ensures (ctx.None? || !ctx.value.authenticated) ==> r == LookupError(NotAuthenticatedMessage)
    ensures r.UserId? <==> ctx.Some? && ctx.value.authenticated && ExistsByNombreUsuario(m, ctx.value.name)
    ensures r.UserId? ==> r.id in m && m[r.id].nombreUsuario == ctx.value.name
    ensures r.LookupError? ==> r.message in {NotAuthenticatedMessage, NotInStoreMessage}
  {
    match ctx
    case None => LookupError(NotAuthenticatedMessage)
    case Some(auth) =>
      if !auth.authenticated then
        LookupError(NotAuthenticatedMessage)
      else
        match FindByNombreUsuario(m, auth.name)
        case None => LookupError(NotInStoreMessage)
        case Some(u) => UserId(u.id)
  }

  /** `getNotificacionesByUsuarioId`. Without an authentication the call
      to `getAuthorities` throws a `NullPointerException`, and every
      `RuntimeException` in the body becomes 404, including one from the
      service call (`fetch` answering None). A caller holding
      ROLE_VOLUNTARIO may only ask for their own id (403 otherwise); any
      other caller gets the list for any id. */
  function GetNotificacionesByUsuarioId(m: UserMap, ctx: Option<Authentication>, idUsuario: int,
                                        fetch: int -> Option<seq<Notificacion>>): (r: Response<seq<Notificacion>>)
    requires ValidUsers(m)
    ensures ctx.None? ==> r == Response(NotFound, None)
    ensures r.status in {Ok, Forbidden, NotFound}
    ensures ctx.Some? && VoluntarioAuthority in ctx.value.authorities && GetAuthenticatedUserId(m, ctx).LookupError? ==>
              r == Response(NotFound, None)
    ensures ctx.Some? && VoluntarioAuthority in ctx.value.authorities && GetAuthenticatedUserId(m, ctx).UserId? ==>
              var k := GetAuthenticatedUserId(m, ctx).id;
              && (k != idUsuario ==> r == Response(Forbidden, None))
              && (k == idUsuario ==> r == Served(fetch(idUsuario)))
    ensures ctx.Some? && VoluntarioAuthority !in ctx.value.authorities ==> r == Served(fetch(idUsuario))
    ensures r.status == Ok <==>
              && ctx.Some? && fetch(idUsuario).Some?
              && (VoluntarioAuthority in ctx.value.authorities ==> GetAuthenticatedUserId(m, ctx) == UserId(idUsuario))
    ensures r.status == Ok ==> r.body == fetch(idUsuario)
  {
    match ctx
    case None => Response(NotFound, None)
    case Some(auth) =>
      var isVoluntario := VoluntarioAuthority in auth.authorities;
      if isVoluntario then
        match GetAuthenticatedUserId(m, ctx)
        case LookupError(_) => Response(NotFound, None)
        case UserId(authenticatedUserId) =>
          if authenticatedUserId != idUsuario then Response(Forbidden, None)
          else Served(fetch(idUsuario))
      else
        Served(fetch(idUsuario))
  }

  /** The answer for the service's list, or 404 when the service threw. */
  function Served(list: Option<seq<Notificacion>>): Response<seq<Notificacion>> {
    match list
    case Some(ns) => Response(Ok, Some(ns))
    case None => Response(NotFound, None)
  }

  /** For a volunteer logged in with the principal of their own row, a
      request for another user's id is refused with 403, and a request for
      their own id is served whenever the service answers. */
  lemma VolunteerSeesOnlyOwnNotifications(m: UserMap, u: Usuario, idUsuario: int,
                                          fetch: int -> Option<seq<Notificacion>>)
    requires ValidUsers(m)
    requires u.id in m && m[u.id] == u && u.rol == "VOLUNTARIO"
    ensures var ctx := Some(Authentication(u.nombreUsuario, true, PrincipalOf(u).authorities));
            var r := GetNotificacionesByUsuarioId(m, ctx, idUsuario, fetch);
            && (r.status == Ok <==> idUsuario == u.id && fetch(u.id).Some?)
            && (idUsuario != u.id ==> r.status == Forbidden)
  {
    PrincipalAuthorityIffRole(u, "VOLUNTARIO");
    var ctx := Some(Authentication(u.nombreUsuario, true, PrincipalOf(u).authorities));
    assert GetAuthenticatedUserId(m, ctx) == UserId(u.id);
  }

  /** What the controller's call `marcarLeida(id, userId)` can produce: the
      updated notification, a `SecurityException`, or another
      `RuntimeException`. */
  datatype MarkOutcome = Marked(n: Notificacion) | Denied | Failed

  /** `marcarNotificacionLeida`: the caller's id is looked up first (its
      failure is a `RuntimeException`, so 404); a `SecurityException` from
      the service is 403, any other `RuntimeException` 404, and the updated
      notification is returned with 200. */
  function MarcarNotificacionLeida(m: UserMap, ctx: Option<Authentication>, id: int,
                                   marcarLeida: (int, int) -> MarkOutcome): (r: Response<Notificacion>)
    requires ValidUsers(m)
    ensures GetAuthenticatedUserId(m, ctx).LookupError? ==> r == Response(NotFound, None)
    ensures GetAuthenticatedUserId(m, ctx).UserId? ==>
              var outcome := marcarLeida(id, GetAuthenticatedUserId(m, ctx).id);
              && (outcome.Denied? <==> r.status == Forbidden)
              && (outcome.Failed? ==> r == Response(NotFound, None))
              && (outcome.Marked? <==> r.status == Ok)
              && (outcome.Marked? ==> r.body == Some(outcome.n))
    ensures r.status in {Ok, Forbidden, NotFound}
    ensures r.status == Ok ==> ctx.Some? && ctx.value.authenticated && ExistsByNombreUsuario(m, ctx.value.name)
  {
    match GetAuthenticatedUserId(m, ctx)
    case LookupError(_) => Response(NotFound, None)
    case UserId(authenticatedUserId) =>
      match marcarLeida(id, authenticatedUserId)
      case Marked(n) => Response(Ok, Some(n))
      case Denied => Response(Forbidden, None)
      case Failed => Response(NotFound, None)
  }

  /** The service call `marcarLeida` answered by the service's own
      `marcarComoLeida` on a notification table: the marked notification
      when the id is stored, a failure otherwise. */
  function MarcarLeidaBy(s: NotificationStore): (int, int) -> MarkOutcome {
    (id: int, userId: int) =>
      var (found, s1) := MarcarComoLeida(s, id);
      if found then Marked(s1.items[id]) else Failed
  }

  /** With the service's `marcarComoLeida` behind the call, a caller whose
      id resolves gets 200 with the notification now read, and otherwise
      unchanged, exactly when it is stored, and 404 otherwise. */
  lemma MarcarNotificacionLeidaWithService(m: UserMap, ctx: Option<Authentication>, id: int, s: NotificationStore)
    requires ValidUsers(m)
    requires GetAuthenticatedUserId(m, ctx).UserId?
    ensures var r := MarcarNotificacionLeida(m, ctx, id, MarcarLeidaBy(s));
            && (id in s.items ==> r == Response(Ok, Some(s.items[id].(leida := true))))
            && (id !in s.items ==> r == Response(NotFound, None))
            && (r.status == Ok ==> r.body.value == MarcarComoLeida(s, id).1.items[id])
  {
  }
}

=== FILE: notificaciones.dfy ===
/**
 The notification table and the service over it: creating a notification,
 marking one read, and listing a user's notifications newest first.
 Timestamps are integers; "now" is a parameter.
 */
module Notificaciones {
  import opened Common

  /** A stored notification. Every stored notification has a creation time,
      because creation fills it in when the caller left it out. */
  datatype Notificacion = Notificacion(
    id: int,
    idUsuario: int,
    titulo: string,
    mensaje: string,
    fechaCreacion: int,
    leida: bool)

  /** A notification handed to `crearNotificacion`, before it is stored.
      Its id and date may be absent. */
  datatype NotificacionNueva = NotificacionNueva(
    id: Option<int>,
    idUsuario: int,
    titulo: string,
    mensaje: string,
    fechaCreacion: Option<int>,
    leida: bool)

  /** The notification table and the next identity value. */
  datatype NotificationStore = NotificationStore(items: map<int, Notificacion>, nextId: int) {
    predicate Valid() {
      forall id :: id in items ==> items[id].id == id && id < nextId
    }
  }

  /** `crearNotificacion`: unread whatever the input said, and dated `now`
      only when it carried no date. `save` then overwrites the stored row
      when the input carries the id of one, and otherwise stores it under a
      fresh id. */
  function CrearNotificacion(s: NotificationStore, n: NotificacionNueva, now: int): (r: (NotificationStore, Notificacion))
    requires s.Valid()
    ensures !r.1.leida
    ensures n.fechaCreacion.Some? ==> r.1.fechaCreacion == n.fechaCreacion.value
    ensures n.fechaCreacion.None? ==> r.1.fechaCreacion == now
    ensures r.1.idUsuario == n.idUsuario && r.1.titulo == n.titulo && r.1.mensaje == n.mensaje
    ensures n.id.Some? && n.id.value in s.items ==> r.1.id == n.id.value && r.0.nextId == s.nextId
    ensures !(n.id.Some? && n.id.value in s.items) ==> r.1.id !in s.items
    ensures r.0.items == s.items[r.1.id := r.1]
    ensures r.0.Valid()
  {
    var fecha := match n.fechaCreacion case Some(f) => f case None => now;
    if n.id.Some? && n.id.value in s.items then
      var stored := Notificacion(n.id.value, n.idUsuario, n.titulo, n.mensaje, fecha, false);
      (s.(items := s.items[n.id.value := stored]), stored)
    else
      var stored := Notificacion(s.nextId, n.idUsuario, n.titulo, n.mensaje, fecha, false);
      (NotificationStore(s.items[s.nextId := stored], s.nextId + 1), stored)
  }

  /** Creating never removes a notification: the table grows by one row,
      or keeps its size when the input named a stored row, which is then
      replaced. */
  lemma CrearGrowsByAtMostOne(s: NotificationStore, n: NotificacionNueva, now: int)
    requires s.Valid()
    ensures var (s1, created) := CrearNotificacion(s, n, now);
            && s1.items.Keys == s.items.Keys + {created.id}
            && (n.id.Some? && n.id.value in s.items <==> |s1.items| == |s.items|)
            && (!(n.id.Some? && n.id.value in s.items) <==> |s1.items| == |s.items| + 1)
  {
  }

  /** `marcarComoLeida`: false and nothing changes for an absent id;
      otherwise true, and only that notification's `leida` becomes true. */
  function MarcarComoLeida(s: NotificationStore, id: int): (r: (bool, NotificationStore))
    ensures r.0 <==> id in s.items
    ensures !r.0 ==> r.1 == s
    ensures r.0 ==> r.1.nextId == s.nextId && r.1.items.Keys == s.items.Keys
    ensures r.0 ==> r.1.items[id] == s.items[id].(leida := true)
    ensures forall k :: k in s.items && k != id ==> k in r.1.items && r.1.items[k] == s.items[k]
    ensures s.Valid() ==> r.1.Valid()
  {
    if id in s.items then
      (true, s.(items := s.items[id := s.items[id].(leida := true)]))
    else
      (false, s)
  }

  /** Marking the same notification read a second time answers the same
      and changes nothing. */
  lemma MarcarComoLeidaIdempotent(s: NotificationStore, id: int)
    ensures var (found, s1) := MarcarComoLeida(s, id);
            MarcarComoLeida(s1, id) == (found, s1)
  {
    var (found, s1) := MarcarComoLeida(s, id);
    if found {
      assert s1.items[id := s1.items[id].(leida := true)] == s1.items;
    }
  }

  /** A notification just created is unread, and marking it read finds it. */
  lemma CrearThenMarcar(s: NotificationStore, n: NotificacionNueva, now: int)
    requires s.Valid()
    ensures var (s1, created) := CrearNotificacion(s, n, now);
            var (found, s2) := MarcarComoLeida(s1, created.id);
            found && s2.items[created.id] == created.(leida := true)
  {
  }

  // ---------------------------------------------------------------------
  // Listing

  predicate SortedNewestFirst(xs: seq<Notificacion>) {
    forall i, j :: 0 <= i < j < |xs| ==> xs[i].fechaCreacion >= xs[j].fechaCreacion
  }

  /** Putting an entry in front of a newest-first list keeps it newest
      first when the entry is at least as new as everything in the list. */
  lemma SortedCons(a: Notificacion, rest: seq<Notificacion>)
    requires SortedNewestFirst(rest)
    requires forall x :: x in rest ==> x.fechaCreacion <= a.fechaCreacion
    ensures SortedNewestFirst([a] + rest)
  {
  }

  /** The tail of a newest-first list is newest first. */
  lemma SortedTail(xs: seq<Notificacion>)
    requires |xs| > 0 && SortedNewestFirst(xs)
    ensures SortedNewestFirst(xs[1..])
  {
    var tail := xs[1..];
    forall i, j | 0 <= i < j < |tail| ensures tail[i].fechaCreacion >= tail[j].fechaCreacion {
      assert tail[i] == xs[i + 1] && tail[j] == xs[j + 1];
    }
  }

  /** A bound on the dates of a list and of one more entry bounds every
      entry of a list holding exactly those entries. */
  lemma BoundThroughMultiset(rest: seq<Notificacion>, tail: seq<Notificacion>, n: Notificacion, bound: int)
    requires multiset(rest) == multiset(tail) + multiset{n}
    requires forall k :: 0 <= k < |tail| ==> tail[k].fechaCreacion <= bound
    requires n.fechaCreacion <= bound
    ensures forall x :: x in rest ==> x.fechaCreacion <= bound
  {
    forall x | x in rest ensures x.fechaCreacion <= bound {
      assert x in multiset(rest);
      if x != n {
        assert x in multiset(tail);
        var k :| 0 <= k < |tail| && tail[k] == x;
      }
    }
  }

  /** Inserts `n` into a newest-first list, before the first entry that is
      strictly older than it. */
  function InsertNewestFirst(xs: seq<Notificacion>, n: Notificacion): (r: seq<Notificacion>)
    requires SortedNewestFirst(xs)
    ensures SortedNewestFirst(r)
    ensures multiset(r) == multiset(xs) + multiset{n}
    decreases |xs|
  {
    if |xs| == 0 || n.fechaCreacion >= xs[0].fechaCreacion then
      SortedCons(n, xs);
      [n] + xs
    else
      SortedTail(xs);
      var rest := InsertNewestFirst(xs[1..], n);
      InsertBehindHead(xs, n, rest);
      [xs[0]] + rest
  }

  /** The recursive step of `InsertNewestFirst`: when `n` is older than the
      head, the head followed by `n` inserted into the tail is newest first
      and holds the entries of `xs` and `n`. */
  lemma InsertBehindHead(xs: seq<Notificacion>, n: Notificacion, rest: seq<Notificacion>)
    requires |xs| > 0 && SortedNewestFirst(xs)
    requires n.fechaCreacion < xs[0].fechaCreacion
    requires SortedNewestFirst(rest) && multiset(rest) == multiset(xs[1..]) + multiset{n}
    ensures SortedNewestFirst([xs[0]] + rest)
    ensures multiset([xs[0]] + rest) == multiset(xs) + multiset{n}
  {
    var tail := xs[1..];
    assert xs == [xs[0]] + tail;
    assert forall k :: 0 <= k < |tail| ==> tail[k] == xs[k + 1];
    BoundThroughMultiset(rest, tail, n, xs[0].fechaCreacion);
    SortedCons(xs[0], rest);
  }

  /** `getNotificacionesByUserId`: exactly the notifications of that user,
      each once, newest first. */
  method GetNotificacionesByUserId(s: NotificationStore, idUsuario: int) returns (r: seq<Notificacion>)
    requires s.Valid()
    ensures SortedNewestFirst(r)
    ensures forall x :: x in r <==> x.id in s.items && s.items[x.id] == x && x.idUsuario == idUsuario
    ensures forall x :: multiset(r)[x] <= 1
  {
    var pending := set id | id in s.items && s.items[id].idUsuario == idUsuario;
    r := [];
    while exists id :: id in pending
      invariant forall id :: id in pending ==> id in s.items && s.items[id].idUsuario == idUsuario
      invariant SortedNewestFirst(r)
      invariant forall x :: x in r <==>
                  x.id in s.items && s.items[x.id] == x && x.idUsuario == idUsuario && x.id !in pending
      invariant forall x :: multiset(r)[x] <= 1
      decreases |pending|
    {
      var id :| id in pending;
      var n := s.items[id];
      assert n !in r;
      var r' := InsertNewestFirst(r, n);
      assert forall x :: x in r' <==> x in r || x == n by {
        forall x ensures x in r' <==> x in r || x == n {
          assert x in r' <==> x in multiset(r');
        }
      }
      r := r';
      pending := pending - {id};
    }
  }
}

=== FILE: reportes.dfy ===
/**
 The summary report: counts over the campaign table and the user table,
 each placed in the DTO field of the same name.

 The campaign table is modelled only here, where the report reads it. The
 enrolled volunteers it carries also decide whether a user can be deleted,
 so the enrolled-id set (`Inscritos`) and its link to
 `UsuarioController.DeleteUsuario` (`EnrolledUserNotDeleted`) live here too.
 */
module Reportes {
  import opened Common
  import opened Usuarios
  import AuthService
  import UsuarioController

  /** The campaign states. `EstadoCampana.java` is not part of this model:
      the report's code names ACTIVA, PLANIFICADA and FINALIZADA, and the
      fourth state, CANCELADA, is the one the system documents besides
      them. */
  datatype EstadoCampana = Planificada | Activa | Finalizada | Cancelada

  /** A campaign row. Dates are day numbers; enrolled volunteers are user ids. */
  datatype Campana = Campana(
    id: int,
    nombre: string,
    descripcion: Option<string>,
    ubicacion: string,
    fechaInicio: int,
    fechaFin: int,
    estado: EstadoCampana,
    voluntariosInscritos: set<int>)

  type CampanaMap = map<int, Campana>

  datatype ReporteResumenDTO = ReporteResumenDTO(
    totalCampanas: nat,
    campanasActivas: nat,
    campanasFinalizadas: nat,
    campanasPlanificadas: nat,
    totalUsuarios: nat,
    totalVoluntarios: nat)

  /** The ids of the campaigns in a given state. */
  function CampanasEn(cs: CampanaMap, estado: EstadoCampana): (ids: set<int>)
    ensures ids <= cs.Keys
    ensures forall id :: id in ids <==> id in cs && cs[id].estado == estado
  {
    set id | id in cs && cs[id].estado == estado
  }

  /** The ids of the users with a given role. */
  function UsuariosConRol(us: UserMap, rol: string): (ids: set<int>)
    ensures ids <= us.Keys
    ensures forall id :: id in ids <==> id in us && us[id].rol == rol
  {
    set id | id in us && us[id].rol == rol
  }

  /** Every campaign is in exactly one state: the sets of two different
      states are disjoint, and the four sets together hold every stored
      campaign. */
  lemma EstadosPartitionCampanas(cs: CampanaMap, e1: EstadoCampana, e2: EstadoCampana)
    ensures e1 != e2 ==> CampanasEn(cs, e1) * CampanasEn(cs, e2) == {}
    ensures CampanasEn(cs, Planificada) + CampanasEn(cs, Activa) + CampanasEn(cs, Finalizada)
              + CampanasEn(cs, Cancelada) == cs.Keys
  {
  }

  /** Every user is counted under their own role, and under no other. */
  lemma RolesPartitionUsuarios(us: UserMap, r1: string, r2: string)
    ensures r1 != r2 ==> UsuariosConRol(us, r1) * UsuariosConRol(us, r2) == {}
    ensures forall id :: id in us ==> id in UsuariosConRol(us, us[id].rol)
  {
  }

  /** The users enrolled in some campaign: the `voluntario_id` column of
      the `campana_voluntarios` join table. */
  function Inscritos(cs: CampanaMap): (ids: set<int>)
    ensures forall v :: v in ids <==> exists c :: c in cs && v in cs[c].voluntariosInscritos
  {
    set c, v | c in cs && v in cs[c].voluntariosInscritos :: v
  }

  /** A user enrolled in a campaign cannot be deleted: the delete fails on
      the join table's foreign key and the user table is left as it was. A
      user enrolled nowhere is deleted. */
  lemma EnrolledUserNotDeleted(m: UserMap, cs: CampanaMap, id: int)
    requires id in m
    ensures (exists c :: c in cs && id in cs[c].voluntariosInscritos) ==>
              UsuarioController.DeleteUsuario(m, Inscritos(cs), id).users == m
    ensures (forall c :: c in cs ==> id !in cs[c].voluntariosInscritos) ==>
              id !in UsuarioController.DeleteUsuario(m, Inscritos(cs), id).users
  {
  }

  /** A subset is no larger than its superset. */
  lemma {:induction false} SubsetCard(a: set<int>, b: set<int>)
    requires a <= b
    ensures |a| <= |b|
    decreases |a|
  {
    if exists x :: x in a {
      var x :| x in a;
      SubsetCard(a - {x}, b - {x});
    }
  }

  /** `countByEstado`. */
  function CountByEstado(cs: CampanaMap, estado: EstadoCampana): (n: nat)
    ensures n <= |cs|
  {
    SubsetCard(CampanasEn(cs, estado), cs.Keys);
    |CampanasEn(cs, estado)|
  }

  /** `countByRol`. */
  function CountByRol(us: UserMap, rol: string): (n: nat)
    ensures n <= |us|
  {
    SubsetCard(UsuariosConRol(us, rol), us.Keys);
    |UsuariosConRol(us, rol)|
  }

  /** `generarResumenReporte`: every count goes to the field of its name. */
  function GenerarResumenReporte(cs: CampanaMap, us: UserMap): (r: ReporteResumenDTO)
    ensures r.totalCampanas == |cs| && r.totalUsuarios == |us|
    ensures r.campanasActivas == |CampanasEn(cs, Activa)|
    ensures r.campanasPlanificadas == |CampanasEn(cs, Planificada)|
    ensures r.campanasFinalizadas == |CampanasEn(cs, Finalizada)|
    ensures r.totalVoluntarios == |UsuariosConRol(us, "VOLUNTARIO")|
    ensures r.totalVoluntarios <= r.totalUsuarios
  {
    var totalCampanas := |cs|;
    var campanasActivas := CountByEstado(cs, Activa);
    var campanasPlanificadas := CountByEstado(cs, Planificada);
    var campanasFinalizadas := CountByEstado(cs, Finalizada);
    var totalUsuarios := |us|;
    var totalVoluntarios := CountByRol(us, "VOLUNTARIO");
    ReporteResumenDTO(totalCampanas, campanasActivas, campanasFinalizadas, campanasPlanificadas,
                      totalUsuarios, totalVoluntarios)
  }

  /** Every campaign has exactly one state, so the per-state counts,
      together with the cancelled ones the report leaves out, add up to the
      total; hence the three reported counts never exceed it. */
  lemma EstadoCountsPartitionTotal(cs: CampanaMap, us: UserMap)
    ensures var r := GenerarResumenReporte(cs, us);
            r.campanasActivas + r.campanasPlanificadas + r.campanasFinalizadas
              + |CampanasEn(cs, Cancelada)| == r.totalCampanas
    ensures var r := GenerarResumenReporte(cs, us);
            r.campanasActivas + r.campanasPlanificadas + r.campanasFinalizadas <= r.totalCampanas
  {
    var a, p, f, c := CampanasEn(cs, Activa), CampanasEn(cs, Planificada), CampanasEn(cs, Finalizada),
                      CampanasEn(cs, Cancelada);
    EstadosPartitionCampanas(cs, Activa, Planificada);
    EstadosPartitionCampanas(cs, Activa, Finalizada);
    EstadosPartitionCampanas(cs, Planificada, Finalizada);
    EstadosPartitionCampanas(cs, Activa, Cancelada);
    EstadosPartitionCampanas(cs, Planificada, Cancelada);
    EstadosPartitionCampanas(cs, Finalizada, Cancelada);
    assert a + p + f + c == cs.Keys;
    assert |a + p| == |a| + |p|;
    assert |a + p + f| == |a + p| + |f|;
    assert |a + p + f + c| == |a + p + f| + |c|;
  }

  /** A successful registration adds one user and one volunteer to the
      report and leaves the campaign counts alone. */
  lemma RegisterAddsOneVolunteer(cs: CampanaMap, s: UserStore, req: AuthService.RegistroRequest)
    requires s.Valid()
    requires AuthService.Register(s, req).Success?
    ensures var s' := AuthService.Register(s, req).value.0;
            var (before, after) := (GenerarResumenReporte(cs, s.users), GenerarResumenReporte(cs, s'.users));
            && after.totalUsuarios == before.totalUsuarios + 1
            && after.totalVoluntarios == before.totalVoluntarios + 1
            && after.totalCampanas == before.totalCampanas
            && after.campanasActivas == before.campanasActivas
            && after.campanasPlanificadas == before.campanasPlanificadas
            && after.campanasFinalizadas == before.campanasFinalizadas
  {
    var (s', u) := AuthService.Register(s, req).value;
    assert UsuariosConRol(s'.users, "VOLUNTARIO") == UsuariosConRol(s.users, "VOLUNTARIO") + {u.id};
  }
}

=== FILE: usuario_controller.dfy ===
/**
 The user endpoints: the current user, profile update, password change and
 deletion. Each endpoint is a function from the user table and the caller
 to a response and the table afterwards.
 */
module UsuarioController {
  import opened Common
  import opened Usuarios
  import AuthService

  /** The projection sent to clients: every field of the user except the
      password hash. */
  datatype UsuarioDTO = UsuarioDTO(
    id: int,
    nombreUsuario: string,
    nombre: string,
    apellido: string,
    email: string,
    telefono: Option<string>,
    rol: string,
    calificacion: real,
    activo: bool)

  /** The DTO built from a user: every field but the password hash. */
  function ToDTO(u: Usuario): (d: UsuarioDTO)
    ensures d.id == u.id && d.nombreUsuario == u.nombreUsuario && d.nombre == u.nombre && d.apellido == u.apellido
    ensures d.email == u.email && d.telefono == u.telefono && d.rol == u.rol
    ensures d.calificacion == u.calificacion && d.activo == u.activo
  {
    UsuarioDTO(u.id, u.nombreUsuario, u.nombre, u.apellido, u.email, u.telefono, u.rol, u.calificacion, u.activo)
  }

  /** Two users project to the same DTO exactly when they differ at most in
      their password hash: the DTO keeps every other field and drops the
      hash. */
  lemma DTOOmitsExactlyContrasena(u: Usuario, v: Usuario)
    ensures ToDTO(u) == ToDTO(v) <==> u.(contrasena := v.contrasena) == v
  {
  }

  /** A response together with the user table after the request. */
  datatype Outcome<+T> = Outcome(response: Response<T>, users: UserMap)

  /** `getCurrentUser`: the DTO of the principal's row. */
  function GetCurrentUser(m: UserMap, principal: Option<Principal>): (r: Response<UsuarioDTO>)
    requires UniqueNombreUsuario(m)
    ensures principal.None? ==> r == Response(Unauthorized, None)
    ensures principal.Some? && !ExistsByNombreUsuario(m, principal.value.username) ==> r == Response(NotFound, None)
    ensures r.status == Ok <==> principal.Some? && ExistsByNombreUsuario(m, principal.value.username)
    ensures r.status == Ok ==>
              exists id :: id in m && m[id].nombreUsuario == principal.value.username && r.body == Some(ToDTO(m[id]))
  {
    match principal
    case None => Response(Unauthorized, None)
    case Some(p) =>
      match FindByNombreUsuario(m, p.username)
      case None => Response(NotFound, None)
      case Some(u) => Response(Ok, Some(ToDTO(u)))
  }

  /** The row `updateUsuario` saves: nombre, apellido, email and telefono
      come from the request, `activo` too when the caller is an admin, and
      every other field stays. */
  function Updated(existing: Usuario, upd: Usuario, isAdmin: bool): Usuario {
    existing.(nombre := upd.nombre, apellido := upd.apellido, email := upd.email, telefono := upd.telefono,
              activo := if isAdmin then upd.activo else existing.activo)
  }

  /** `updateUsuario`: 404 for an unknown id before any permission check,
      403 unless the caller is an admin or the user themself; when the
      database refuses the updated row (an email already in use, a field
      too long) the exception leaves the controller, which catches nothing;
      otherwise 200 with the saved row. */
  function UpdateUsuario(m: UserMap, auth: Authentication, id: int, upd: Usuario): (r: Outcome<UsuarioDTO>)
    requires ValidUsers(m)
    ensures id !in m ==> r == Outcome(Response(NotFound, None), m)
    ensures id in m && AdminAuthority !in auth.authorities && m[id].nombreUsuario != auth.name ==>
              r == Outcome(Response(Forbidden, None), m)
    ensures r.response.status != Ok ==> r.users == m
    ensures r.response.status == Ok <==>
              && id in m
              && (AdminAuthority in auth.authorities || m[id].nombreUsuario == auth.name)
              && Save(m, Updated(m[id], upd, AdminAuthority in auth.authorities)).Some?
    ensures (&& id in m
             && (AdminAuthority in auth.authorities || m[id].nombreUsuario == auth.name)
             && Save(m, Updated(m[id], upd, AdminAuthority in auth.authorities)).None?) ==>
              r == Outcome(Response(Uncaught, None), m)
    ensures r.response.status in {Ok, NotFound, Forbidden, Uncaught}
    ensures ValidUsers(r.users)
    ensures r.response.status == Ok ==>
              && id in m && id in r.users
              && (AdminAuthority in auth.authorities || m[id].nombreUsuario == auth.name)
              && r.users.Keys == m.Keys
              && (forall k :: k in m && k != id ==> r.users[k] == m[k])
              && var (before, after) := (m[id], r.users[id]);
                 && after.id == before.id && after.nombreUsuario == before.nombreUsuario
                 && after.contrasena == before.contrasena && after.rol == before.rol
                 && after.calificacion == before.calificacion
                 && after.nombre == upd.nombre && after.apellido == upd.apellido
                 && after.email == upd.email && after.telefono == upd.telefono
                 && after.activo == (if AdminAuthority in auth.authorities then upd.activo else before.activo)
                 && r.response.body == Some(ToDTO(after))
  {
    if id !in m then
      Outcome(Response(NotFound, None), m)
    else
      var existing := m[id];
      var isAdmin := AdminAuthority in auth.authorities;
      var isSelfUpdate := existing.nombreUsuario == auth.name;
      if !isAdmin && !isSelfUpdate then
        Outcome(Response(Forbidden, None), m)
      else
        var saved := Updated(existing, upd, isAdmin);
        match Save(m, saved)
        case None => Outcome(Response(Uncaught, None), m)
        case Some(m') => Outcome(Response(Ok, Some(ToDTO(saved))), m')
  }

  /** Sending the same update again changes nothing more and answers the
      same. */
  lemma UpdateUsuarioIdempotent(m: UserMap, auth: Authentication, id: int, upd: Usuario)
    requires ValidUsers(m)
    requires UpdateUsuario(m, auth, id, upd).response.status == Ok
    ensures var r := UpdateUsuario(m, auth, id, upd);
            UpdateUsuario(r.users, auth, id, upd) == r
  {
  }

  /** The JSON body of a password change. `userId` is None when it is
      missing or not a number, which makes `Long.valueOf` throw. */
  datatype PasswordChange = PasswordChange(userId: Option<int>, currentPassword: string, newPassword: string)

  const NoPermissionMessage: string := "No tienes permiso para cambiar la contraseña de este usuario."
  const WrongPasswordMessage: string := "La contraseña actual es incorrecta."
  const PasswordChangedMessage: string := "Contraseña cambiada exitosamente."

  /** `changePassword`: 401 without a principal; an exception out of the
      controller for a missing or unknown user id; 403 when the row is not
      the principal's; 400 when the current password does not match;
      otherwise the new password's encoding replaces the hash and 200. */
  function ChangePassword(m: UserMap, principal: Option<Principal>, req: PasswordChange): (r: Outcome<string>)
    requires ValidUsers(m)
    ensures principal.None? ==> r == Outcome(Response(Unauthorized, None), m)
    ensures principal.Some? && (req.userId.None? || req.userId.value !in m) ==>
              r == Outcome(Response(Uncaught, None), m)
    ensures principal.Some? && req.userId.Some? && req.userId.value in m
            && m[req.userId.value].nombreUsuario != principal.value.username ==>
              r == Outcome(Response(Forbidden, Some(NoPermissionMessage)), m)
    ensures principal.Some? && req.userId.Some? && req.userId.value in m
            && m[req.userId.value].nombreUsuario == principal.value.username
            && !Matches(req.currentPassword, m[req.userId.value].contrasena) ==>
              r == Outcome(Response(BadRequest, Some(WrongPasswordMessage)), m)
    ensures r.response.status == Ok <==>
              && principal.Some? && req.userId.Some? && req.userId.value in m
              && m[req.userId.value].nombreUsuario == principal.value.username
              && Matches(req.currentPassword, m[req.userId.value].contrasena)
    ensures r.response.status == Ok ==>
              && r.response.body == Some(PasswordChangedMessage)
              && r.users == m[req.userId.value := m[req.userId.value].(contrasena := Encode(req.newPassword))]
    ensures ValidUsers(r.users)
  {
    match principal
    case None => Outcome(Response(Unauthorized, None), m)
    case Some(p) =>
      match req.userId
      case None => Outcome(Response(Uncaught, None), m)
      case Some(userId) =>
        if userId !in m then
          Outcome(Response(Uncaught, None), m)
        else
          var usuario := m[userId];
          if usuario.nombreUsuario != p.username then
            Outcome(Response(Forbidden, Some(NoPermissionMessage)), m)
          else if !Matches(req.currentPassword, usuario.contrasena) then
            Outcome(Response(BadRequest, Some(WrongPasswordMessage)), m)
          else
            match Save(m, usuario.(contrasena := Encode(req.newPassword)))
            case None => Outcome(Response(Uncaught, None), m)
            case Some(m') => Outcome(Response(Ok, Some(PasswordChangedMessage)), m')
  }

  /** After a successful password change the user logs in with the new
      password, and with no other. */
  lemma ChangePasswordThenAutenticar(m: UserMap, principal: Option<Principal>, req: PasswordChange, other: string)
    requires ValidUsers(m)
    requires ChangePassword(m, principal, req).response.status == Ok
    ensures var m' := ChangePassword(m, principal, req).users;
            AuthService.Autenticar(m', principal.value.username, req.newPassword).Success?
    ensures var m' := ChangePassword(m, principal, req).users;
            other != req.newPassword ==>
              AuthService.Autenticar(m', principal.value.username, other) == AuthService.Failure(AuthService.BadCredentials)
  {
    var m' := ChangePassword(m, principal, req).users;
    var id := req.userId.value;
    assert m'[id].nombreUsuario == principal.value.username;
    MatchesOnlyItsOwnEncoding(req.newPassword, other);
  }

  /** `deleteUsuario`: 404 for an absent id; otherwise `deleteById`. The
      users enrolled in a campaign (`enrolled`, the `voluntario_id` column
      of the `campana_voluntarios` join table) are referenced by a foreign
      key, so deleting one of them fails when the delete is flushed; the
      exception is not caught and leaves the controller, and the row stays.
      Any other user is removed with 204. */
  function DeleteUsuario(m: UserMap, enrolled: set<int>, id: int): (r: Outcome<()>)
    ensures id !in m ==> r == Outcome(Response(NotFound, None), m)
    ensures id in m && id in enrolled ==> r == Outcome(Response(Uncaught, None), m)
    ensures r.response.status == NoContent <==> id in m && id !in enrolled
    ensures r.response.status == NoContent ==>
              && r.response.body == None
              && r.users.Keys == m.Keys - {id}
              && forall k :: k in r.users ==> r.users[k] == m[k]
    ensures r.users.Keys * enrolled == m.Keys * enrolled
    ensures ValidUsers(m) ==> ValidUsers(r.users)
  {
    if id !in m then Outcome(Response(NotFound, None), m)
    else if id in enrolled then Outcome(Response(Uncaught, None), m)
    else Outcome(Response(NoContent, None), m - {id})
  }
}

=== FILE: usuarios.dfy ===
/**
 The `Usuario` entity, the user table it lives in (with the column and
 uniqueness constraints the entity declares), the repository lookups the
 services use, and the mapping of a user to a security principal.
 */
module Usuarios {
  import opened Common

  /** One row of the user table. `calificacion` is a floating-point rating
      that nothing in the model reasons about. */
  datatype Usuario = Usuario(
    id: int,
    nombreUsuario: string,
    contrasena: string,
    nombre: string,
    apellido: string,
    email: string,
    telefono: Option<string>,
    rol: string,
    calificacion: real,
    activo: bool)

  /** The column lengths the entity declares; the database refuses a row
      that exceeds one of them. */
  predicate FitsColumns(u: Usuario) {
    && |u.nombreUsuario| <= 50
    && |u.nombre| <= 100
    && |u.apellido| <= 100
    && |u.email| <= 100
    && (u.telefono.Some? ==> |u.telefono.value| <= 20)
    && |u.rol| <= 20
  }

  /** The user table, keyed by primary key. */
  type UserMap = map<int, Usuario>

  predicate KeyedById(m: UserMap) {
    forall id :: id in m ==> m[id].id == id
  }

  predicate UniqueNombreUsuario(m: UserMap) {
    forall i, j :: i in m && j in m && m[i].nombreUsuario == m[j].nombreUsuario ==> i == j
  }

  predicate UniqueEmail(m: UserMap) {
    forall i, j :: i in m && j in m && m[i].email == m[j].email ==> i == j
  }

  predicate AllFitColumns(m: UserMap) {
    forall id :: id in m ==> FitsColumns(m[id])
  }

  /** Everything the database guarantees of the user table. */
  predicate ValidUsers(m: UserMap) {
    KeyedById(m) && UniqueNombreUsuario(m) && UniqueEmail(m) && AllFitColumns(m)
  }

  /** The table together with the next identity value the database hands out. */
  datatype UserStore = UserStore(users: UserMap, nextId: int) {
    predicate Valid() {
      ValidUsers(users) && forall id :: id in users ==> id < nextId
    }
  }

  predicate ExistsByNombreUsuario(m: UserMap, name: string) {
    exists id :: id in m && m[id].nombreUsuario == name
  }

  predicate ExistsByEmail(m: UserMap, email: string) {
    exists id :: id in m && m[id].email == email
  }

  /** `findByNombreUsuario`: the unique row with that user name, if any. */
  function FindByNombreUsuario(m: UserMap, name: string): (r: Option<Usuario>)
    requires UniqueNombreUsuario(m)
    ensures r.Some? <==> ExistsByNombreUsuario(m, name)
    ensures forall id :: id in m && m[id].nombreUsuario == name ==> r == Some(m[id])
  {
    if exists id :: id in m && m[id].nombreUsuario == name then
      var id :| id in m && m[id].nombreUsuario == name;
      Some(m[id])
    else
      None
  }

  /** Another row already holds the user name or the email of `u`. */
  predicate ClashesWithOther(m: UserMap, u: Usuario) {
    exists id :: id in m && id != u.id && (m[id].nombreUsuario == u.nombreUsuario || m[id].email == u.email)
  }

  /** `save(u)` of a row keyed by `u.id`, inserting or overwriting it. The
      database refuses the row (None) when it breaks a column length or a
      unique constraint held by another row, so a table that satisfies its
      constraints keeps satisfying them. */
  function Save(m: UserMap, u: Usuario): (r: Option<UserMap>)
    ensures r.Some? <==> FitsColumns(u) && !ClashesWithOther(m, u)
    ensures r.Some? ==> r.value.Keys == m.Keys + {u.id} && r.value[u.id] == u
    ensures r.Some? ==> forall id :: id in m && id != u.id ==> r.value[id] == m[id]
    ensures ValidUsers(m) && r.Some? ==> ValidUsers(r.value)
  {
    if FitsColumns(u) && !ClashesWithOther(m, u) then Some(m[u.id := u]) else None
  }

  /** `deleteById`: removing a row never breaks the table's constraints. */
  lemma DeletePreservesValidity(m: UserMap, id: int)
    requires ValidUsers(m)
    ensures ValidUsers(m - {id})
    ensures (m - {id}).Keys == m.Keys - {id}
  {
  }

  // ---------------------------------------------------------------------
  // Security principal

  /** Spring Security's `User` as built by `toUserDetails`. */
  datatype Principal = Principal(
    username: string,
    password: string,
    enabled: bool,
    accountNonExpired: bool,
    credentialsNonExpired: bool,
    accountNonLocked: bool,
    authorities: seq<string>)

  const RolePrefix: string := "ROLE_"

  /** The granted authority that stands for a role. */
  function Authority(rol: string): string {
    RolePrefix + rol
  }

  /** The `Authentication` held by the security context: its name, whether
      it is authenticated, and the authorities it was granted. */
  datatype Authentication = Authentication(name: string, authenticated: bool, authorities: seq<string>)

  const AdminAuthority: string := "ROLE_ADMIN"
  const VoluntarioAuthority: string := "ROLE_VOLUNTARIO"

  /** Different roles give different authorities, so an authority names
      exactly one role. */
  lemma {:induction false} AuthorityInjective(a: string, b: string)
    ensures Authority(a) == Authority(b) <==> a == b
  {
    if Authority(a) == Authority(b) {
      assert a == Authority(a)[|RolePrefix|..];
      assert b == Authority(b)[|RolePrefix|..];
    }
  }

  /** The principal `toUserDetails` hands to Spring Security's `User`
      constructor: the user's name, hash and `activo`, three flags that are
      always true, and the single authority of the user's role. */
  function PrincipalOf(u: Usuario): (p: Principal)
    ensures |p.authorities| == 1
    ensures p.username == u.nombreUsuario && p.password == u.contrasena
    ensures p.enabled == u.activo
    ensures p.accountNonExpired && p.credentialsNonExpired && p.accountNonLocked
  {
    Principal(u.nombreUsuario, u.contrasena, u.activo, true, true, true, [Authority(u.rol)])
  }

  /** `toUserDetails`: the `User` constructor refuses an empty user name
      with an `IllegalArgumentException`, which is None here; any other
      user gets its principal. */
  function ToUserDetails(u: Usuario): (p: Option<Principal>)
    ensures p.Some? <==> u.nombreUsuario != ""
    ensures p.Some? ==> p.value == PrincipalOf(u)
  {
    if u.nombreUsuario == "" then None else Some(PrincipalOf(u))
  }

  /** The principal of a user holds the authority of a role exactly when the
      user has that role; in particular it is an admin principal exactly
      when `rol` is "ADMIN", and a volunteer principal exactly when `rol`
      is "VOLUNTARIO". */
  lemma PrincipalAuthorityIffRole(u: Usuario, rol: string)
    ensures Authority(rol) in PrincipalOf(u).authorities <==> u.rol == rol
    ensures AdminAuthority in PrincipalOf(u).authorities <==> u.rol == "ADMIN"
    ensures VoluntarioAuthority in PrincipalOf(u).authorities <==> u.rol == "VOLUNTARIO"
  {
    AuthorityInjective(u.rol, rol);
    assert AdminAuthority == Authority("ADMIN");
    assert VoluntarioAuthority == Authority("VOLUNTARIO");
    AuthorityInjective(u.rol, "ADMIN");
    AuthorityInjective(u.rol, "VOLUNTARIO");
  }

  /** Two users give the same principal exactly when they agree on user
      name, password hash, `activo` and `rol`: the principal carries those
      four fields and nothing else of the user. */
  lemma PrincipalDeterminedByFourFields(u: Usuario, v: Usuario)
    ensures PrincipalOf(u) == PrincipalOf(v) <==>
      && u.nombreUsuario == v.nombreUsuario
      && u.contrasena == v.contrasena
      && u.activo == v.activo
      && u.rol == v.rol
  {
    AuthorityInjective(u.rol, v.rol);
    if PrincipalOf(u) == PrincipalOf(v) {
      assert PrincipalOf(u).authorities[0] == PrincipalOf(v).authorities[0];
    }
  }
}
